=== FILE: README.md ===
# jepsen.dqlite test application: a verified model of its request logic

The jepsen.dqlite test application (`resources/app.go`) is a small HTTP server
that Jepsen drives. It sits in front of a dqlite node, a replicated SQLite
database. This project models in Dafny the logic behind its handlers and its
start-up decisions, and proves what they promise:

- `/append` (`appendPost` inside `withTx`). It interprets a batch
  `[[op k v] [op k v] ...]` of reads (`:r k nil`) and appends (`:append k v`)
  in one transaction. It renders a reply that mirrors the batch, and it commits
  all of the batch or none of it.
- `/bank` (`bankPut`, `bankPost`, `bankGet`). These read flat
  `{:key value, ...}` bodies, seed the accounts at most once, move an amount
  between two accounts, and list the ledger.
- `/ready`, `/members` (GET and DELETE) and `/leader`. These are decisions over
  a snapshot of the cluster that the leader reports.
- Start-up in `main`:
  - the list of nodes a node joins through (`makeAddress`,
    `preceedingAddresses`, `otherAddresses`);
  - whether it fixes the number of voters;
  - the bounded retry of the schema creation.

The database and the cluster are foreign collaborators, so they are modelled
as abstract state and injected answers:

- The `map (key INT, value INT)` table is a sequence of rows (`Store.Row`). The
  class `Store.Db` holds the committed table and the view of the open
  transaction.
- Every failure the engine can report comes from a `Store.Script`: whether
  BEGIN fails, whether statement number n fails, and whether COMMIT fails.
- The leader's answers (a member list, or the leader) arrive as a `Result`.
- DNS resolution and reverse lookup are function parameters.
- A Go runtime panic (an index out of range, a division by zero) is a separate
  outcome, `Reply.Panicked`. It is neither an error reply nor a precondition.

Modules and files:

- `common.dfy` (`Common`): `Option`, `Result`, the errors, and `Reply`.
- `text.dfy` (`Text`): the part of Go's `strings` and `strconv` that the
  handlers use. This is `Index`, `Split`, `SplitN(…, 2)` and `Join`. It also
  covers `strconv.Atoi` exactly: syntax errors read as 0, and out-of-range
  values are clamped to 64 bits. It also has `%d`.
- `store.dfy` (`Store`): the table, the statements, and `withTx` (`Settle`).
- `append.dfy` (`Append`, `AppendMeaning`): the batch interpreter, and what a
  batch means.
- `bank.dfy` (`Bank`, `BankLaws`): the ledger handlers and their laws.
- `membership.dfy` (`Membership`): the cluster handlers.
- `join.dfy` (`Startup`): the start-up decisions.

The loops of the handlers are methods with loop invariants. Each method is
proved equal to a specification function, and lemmas then state what that
function promises.

Notes on the modelling:

- `/append`: elements written back to back, `[...][...]`, are a bad request.
  After each `]` the code skips one character of any kind, so the second
  element loses its `[` (`AppendMeaning.AdjacentElementsRejected`). A batch
  without separators might be expected to be accepted. This model follows the
  code, which rejects it.
- `/bank` (PUT): as written, the error check at app.go:229 declares a new `err` that hides the transaction's error. An error of another type than driver.Error (`Common.DbError.Foreign`) is therefore replied as driver.Error's zero value (`Fault(0)`), and its cause is lost. The model states both (`Bank.TolerateAsWritten`, `Bank.InitAsWritten`), and the rest of the model uses the intended check, `Bank.Tolerate`. This is recorded under Findings below.
- `/leader`: as written, the reply is the name in quotes followed by a stray
  `)`. The evidently intended reply is a quoted name, the way `membersGet`
  quotes each member's name. This is recorded under Findings below.

## Model

| member | source | states |
|---|---|---|
| Text.IndexFirst | resources/app.go:100-103 | `strings.Index` gives the first occurrence of the separator, and -1 means there is none |
| Text.IndexCharFirst | resources/app.go:100-103 | `strings.Index` of one character is its first position, and -1 exactly when the character does not occur |
| Text.SplitFirst | resources/app.go:195 | `SplitN(s, " ", 2)` gives two parts exactly when the separator occurs, cut at its first occurrence; the parts rebuild `s` around the separator |
| Text.JoinSplit | resources/app.go:194 | joining the parts of a split with the same separator gives back the string |
| Text.SplitJoin | resources/app.go:194 | splitting a join gives back the parts when no part holds the separator's first character |
| Text.Atoi | resources/app.go:201 | `strconv.Atoi`'s value is a 64-bit integer: the parsed value, 0 on a syntax error, and on overflow the clamp, the lowest 64-bit integer for a leading `-` and the highest otherwise |
| Text.ParseItoa | resources/app.go:180 | every 64-bit integer rendered with `%d` parses back to itself |
| Text.AtoisDecimals | resources/app.go:200-203 | a list of 64-bit integers rendered in decimal reads back as the same list |
| Store.Query | resources/app.go:116-133 | the read succeeds exactly when no fault is injected and the key is an integer; it returns the values of the rows with that key |
| Store.Insert | resources/app.go:137-141 | the insert succeeds exactly when no fault is injected and both tokens are integers; it adds exactly one row at the end |
| Store.Settle | resources/app.go:68-84 | the reply is text exactly when BEGIN, the body and COMMIT all succeed, and only then is the body's table committed; otherwise the table is unchanged and the first failure is reported: a failed BEGIN or COMMIT as the collaborator's error, a failed body as its own error or panic |
| Store.SelectAfterInsert | resources/app.go:116 | after an append, a key reads as its earlier values followed by the new one; other keys read as before |
| Store.SelectSound | resources/app.go:116-129 | every value read for a key comes from a row with that key, one per row |
| Store.SumAddTo | resources/app.go:258-264 | an UPDATE adds `d` once for every row it touches |
| Store.CountAddTo | resources/app.go:258-264 | an UPDATE changes no key's number of rows |
| Store.Db.Begin | resources/app.go:69-72 | a successful BEGIN opens a transaction on the committed table; a failed one changes nothing |
| Store.Db.Add | resources/app.go:137-141 | an INSERT changes only the transaction's view, exactly as `Insert` says |
| Store.Db.Put | resources/app.go:219-222 | an INSERT of two integers appends their row to the transaction's view, unless it faults |
| Store.Db.Update | resources/app.go:258-264 | an UPDATE changes the transaction's view as `AddTo` says, unless it faults |
| Store.Db.Finish | resources/app.go:74-83 | the body's error rolls back, a failed COMMIT rolls back, and otherwise the view becomes the committed table |
| Append.CutElement | resources/app.go:96-103 | the body is empty exactly when cutting finds no element; the remainder after an element is shorter than the body |
| Append.CutElementCuts | resources/app.go:96-153 | a body is malformed exactly when it does not start with `[` or holds no `]` after it; otherwise the element is the text between the `[` and the first `]`, and the remainder is what follows that `]` and exactly one more character of any kind |
| Append.ParseOpRendered | resources/app.go:104-114 | an element text that parses is exactly the rendering `:r k nil` or `:append k v` of the operation it parses to |
| Append.CutAll | resources/app.go:95-154 | cutting that ends at a closing `]` has found at least one element |
| Append.ParseOps | resources/app.go:104-114 | a body that parses has at least one operation |
| Append.Execute | resources/app.go:116-142 | a faulting statement refuses the element with the collaborator's error |
| Append.ExecuteEffect | resources/app.go:116-142 | a read renders the key's values in the table as it stands and leaves the table alone; an append echoes its tokens verbatim and adds exactly one row |
| Append.BatchStep | resources/app.go:95-154 | one pass of the element loop: the element runs, and the loop stops at a final `]` or skips one character and continues |
| Append.RunElement | resources/app.go:104-145 | one element on the open transaction renders its reply and changes the view as `Element` specifies, or reports `Element`'s error (a bad request for wrong syntax) with the view unchanged |
| Append.RunBatch | resources/app.go:95-154 | the element loop on the open transaction ends as `Batch` specifies, and on completion leaves the view `Batch` gives |
| Append.AppendPost | resources/app.go:86-163 | the handler returns the reply and leaves the committed table that `Interpret` specifies; any non-text reply leaves the table unchanged |
| AppendMeaning.AdjacentElementsRejected | resources/app.go:147-153 | elements written back to back are a bad request, because the `[` of the second element is skipped |
| AppendMeaning.ExecuteAdds | resources/app.go:137-141 | a successful operation adds exactly its own rows |
| AppendMeaning.RunAllRows | resources/app.go:95-154 | a successful batch renders one text per operation and adds exactly the appended rows, in batch order |
| AppendMeaning.RunAllEcho | resources/app.go:142 | each append in a successful batch is echoed verbatim |
| AppendMeaning.RunAllRead | resources/app.go:116-135 | each read in a successful batch renders its key's values in the table it started from followed by the rows the earlier appends of the same batch added: a batch reads its own appends |
| AppendMeaning.RunDone | resources/app.go:95-155 | a completed element loop means that every element parsed, no statement failed, and the text is the renderings joined by spaces and closed by `]` |
| AppendMeaning.RunOfParsed | resources/app.go:95-155 | conversely, elements that all parse and run with no fault complete the loop with exactly that text and table |
| AppendMeaning.BatchDoneParses | resources/app.go:94-155 | a completed batch body parses, and its result is the joined renderings |
| AppendMeaning.BatchOfParsed | resources/app.go:94-155 | a parsed body with no faults completes with the joined renderings |
| AppendMeaning.AppendSucceeds | resources/app.go:86-163 | a successful `/append` had a bracketed body that parses; the reply is `[` + renderings joined by single spaces + `]`, and the table gained exactly the appended rows |
| AppendMeaning.AppendOfParsed | resources/app.go:86-163 | every well-formed batch whose operations run succeeds when nothing faults |
| AppendMeaning.NotBracketed | resources/app.go:90-92 | a body that does not start with `[` and end with `]` is a bad request that changes nothing |
| AppendMeaning.OpTextParses | resources/app.go:104-114 | an element `:r k nil` or `:append k v` whose tokens hold no space and no `]` reads back as that operation |
| AppendMeaning.BatchRoundTrip | resources/app.go:95-154 | the elements of a non-empty batch, rendered and separated by single spaces, parse back to the same operations |
| AppendMeaning.BatchTextRoundTrip | resources/app.go:90-94 | a rendered batch is bracketed, and what its brackets hold parses back to the operations |
| AppendMeaning.RunStopsAtMalformed | resources/app.go:95-110 | when the elements before the first malformed one run without a fault, the element loop stops there with a bad request |
| AppendMeaning.MalformedElementRejected | resources/app.go:86-163 | such a batch replies with a bad request and commits nothing, whatever follows the malformed element |
| AppendMeaning.RunStopsAtBadCut | resources/app.go:96-103 | when every element cut so far parses and runs without a fault and the remainder is not an element, the loop stops there with a bad request |
| AppendMeaning.BadCutRejected | resources/app.go:86-163 | such a batch (no `[` where an element must start, or no `]` after it) replies with a bad request and commits nothing |
| AppendMeaning.EmptyBatchPanics | resources/app.go:90-96 | an empty body and `[]` panic with an index out of range, and nothing is committed |
| AppendMeaning.TrailingSeparatorPanics | resources/app.go:96-153 | for a one-element body, a character after the element's `]` makes the loop read an empty remainder: a panic, and nothing is committed |
| AppendMeaning.TrailingSeparatorCrashes | resources/app.go:96-153 | after an element that runs, a one-character separator before the end of the body ends the element loop in an index-out-of-range panic |
| AppendMeaning.RunCrashesAtEmptyCut | resources/app.go:96-153 | after any number of elements that parse and run fault-free, an empty remainder makes the loop index past its end: an index-out-of-range panic |
| AppendMeaning.EmptyCutCrashes | resources/app.go:86-163 | a body of any length whose last element is followed by a separator (its cutting ends on an empty remainder) panics after its elements have run, and nothing is committed |
| Bank.Quot | resources/app.go:208 | Go's division truncates toward zero: the remainder has the dividend's sign and is smaller than the divisor |
| Bank.Field | resources/app.go:195-197 | an item splits into key and value around its first space; an item with no space panics |
| Bank.Items | resources/app.go:193-194 | a body shorter than two characters panics; any other body gives items |
| Bank.AccountIds | resources/app.go:200-203 | an `:accounts` value shorter than two characters panics; any other value gives ids |
| Bank.Seed | resources/app.go:218-223 | one row per listed account, in list order, each with the same balance |
| Bank.Inserts | resources/app.go:218-224 | the inserts commit exactly when no insert faults, and then add exactly the seeded rows after the table; otherwise they abort with the error of the first faulting insert |
| Bank.ReadSetupItems | resources/app.go:191-207 | the item loop of `bankPut` reads what `ParseSetup` specifies: later `:accounts` items add ids, the last `:total-amount` wins, other keys are ignored |
| Bank.ReadIds | resources/app.go:200-203 | the id loop reads each token with `Atoi`, in order |
| Bank.SeedAccounts | resources/app.go:210-224 | the transaction body counts the rows, leaves a non-empty table alone, and otherwise inserts the seeded rows one by one |
| Bank.Tolerate | resources/app.go:227-234 | the error check as intended: a busy error becomes "nil", and every other outcome of the transaction is the reply, with the table the transaction left |
| Bank.TolerateAsWritten | resources/app.go:227-234 | the error check as written: as intended, except that an error of another type than driver.Error becomes driver.Error's zero value, which differs from it |
| Bank.InitAsWritten | resources/app.go:190-235 | `bankPut` as written leaves the same table as `Init`, and replies as `Init` does except that an error of another type than driver.Error is replied as driver.Error's zero value |
| Bank.BankPut | resources/app.go:190-235 | the handler returns the reply and leaves the committed table that `Init` specifies |
| Bank.ReadTransferItems | resources/app.go:238-255 | the item loop of `bankPost` reads what `ParseTransfer` specifies; absent keys stay 0 |
| Bank.BankPost | resources/app.go:237-273 | the handler returns the reply and leaves the committed table that `Move` specifies |
| Bank.EntriesAt | resources/app.go:172-181 | entry i of the listing renders row i as `id balance` |
| Bank.BankGet | resources/app.go:165-188 | the handler returns the collaborator's error, or `{` + the rows rendered in table order and joined by `, ` + `}` |
| BankLaws.SeedSum | resources/app.go:218-223 | the seeded rows hold the number of accounts times the balance |
| BankLaws.SeededTotal | resources/app.go:208 | a seeded table holds the total up to the truncated remainder, which is smaller than the number of accounts and never overshoots |
| BankLaws.InitOnce | resources/app.go:209-225 | `bankPut` leaves the table as it was, or seeds an empty table with one row per listed account at the truncated share |
| BankLaws.InitIdempotent | resources/app.go:215-217 | once a `bankPut` has changed the table, no later `bankPut` changes it |
| BankLaws.InitSeeds | resources/app.go:208-234 | with nothing failing, an empty table is seeded with every listed account, in list order, and the reply is "nil" |
| BankLaws.InsertFaultRollsBack | resources/app.go:218-225 | a failed insert rolls the whole seeding back: the table stays empty |
| BankLaws.NoAccountsPanics | resources/app.go:208 | a body that names no account panics on the division, whatever the table and the collaborator |
| BankLaws.BusyTolerated | resources/app.go:227-234 | `bankPut` never reports a busy store: whichever step of the transaction (BEGIN, the count, an insert, COMMIT) was busy, the reply is "nil" with the table unchanged; every other error of the transaction is the reply, with the table unchanged (as intended; app.go:229 as written loses an error of another type than driver.Error, see Findings) |
| BankLaws.ForeignErrorLost | resources/app.go:209-231 | a BEGIN that fails with an error of another type than driver.Error is replied, as written, as driver.Error's zero value, while the intended reply is that error |
| BankLaws.EmptyIdListIsAccountZero | resources/app.go:200-203 | `:accounts []` reads as the single account 0 |
| BankLaws.FieldOf | resources/app.go:195-197 | an item whose key has no space reads back as that key and value |
| BankLaws.ItemsOfMap | resources/app.go:193-194 | a map body whose items hold no comma splits back into its items |
| BankLaws.ReadAccounts | resources/app.go:199-203 | an `:accounts` item appends its ids to the state |
| BankLaws.ReadTotal | resources/app.go:204-205 | a `:total-amount` item sets the total to its value |
| BankLaws.OtherSetupKeyIgnored | resources/app.go:194-207 | an item with a key other than `:accounts` and `:total-amount` changes nothing that is read |
| BankLaws.IdsRoundTrip | resources/app.go:200-203 | the id vector the client sends reads back as those ids |
| BankLaws.AccountsThenTotal | resources/app.go:194-207 | an `:accounts` item followed by a `:total-amount` item reads as those ids and that total |
| BankLaws.SetupItemsRead | resources/app.go:194-207 | the client's two items read as the ids and the total |
| BankLaws.SetupRoundTrip | resources/app.go:191-207 | `bankPut` reads back exactly the accounts and total the client sends |
| BankLaws.MoveEffect | resources/app.go:257-272 | a committed transfer debits every row of `from` and credits every row of `to`, with nothing else changed; any other outcome leaves the table as it was |
| BankLaws.MoveConserves | resources/app.go:257-266 | a transfer keeps the sum of all balances whenever the two accounts have equally many rows, whatever the collaborator reports |
| BankLaws.TransferConserves | resources/app.go:258-265 | debiting and crediting the same amount to equally many rows keeps the sum |
| BankLaws.ReadKey | resources/app.go:247-253 | a `:from`, `:to` or `:amount` item sets that field to its value |
| BankLaws.OtherTransferKeyIgnored | resources/app.go:242-254 | an item with a key other than `:from`, `:to` and `:amount` changes nothing that is read |
| BankLaws.TransferItemsRead | resources/app.go:243-255 | the client's three items read as the transfer |
| BankLaws.TransferRoundTrip | resources/app.go:238-255 | `bankPost` reads back exactly the transfer the client sends |
| BankLaws.LedgerRoundTrip | resources/app.go:172-187 | the ledger lists every row in table order, and each entry reads back as that row's key and value |
| Membership.HostPrefix | resources/app.go:330 | the host part of an address is a prefix of it that holds no colon |
| Membership.HostOfAddress | resources/app.go:34-36 | the host part of `makeAddress(host, port)` is `host` when `host` holds no colon |
| Membership.First | resources/app.go:386-393 | the position found is the first member that matches, and no position means that no member matches |
| Membership.ReadyGet | resources/app.go:398-421 | the reply is "nil" exactly when the member count equals the number of configured nodes and no member is a spare; a size mismatch is reported before any spare, and a spare is reported by the address of the first one |
| Membership.MembersDelete | resources/app.go:368-396 | removal is requested exactly when some member's address is the resolved IP with `:8081`, and then for the first such member; with no match the reply is "no node named ..." and nothing is removed; leader and resolution errors come first |
| Membership.Lookup | resources/app.go:354-362 | a member's entry succeeds exactly when the reverse lookup of its host gives one name, and is then that name quoted; a failed lookup and a count other than one are failures naming the member's address |
| Membership.LookupAllOk | resources/app.go:352-365 | when every member resolves, the listing has one entry per member, in cluster order |
| Membership.LookupAllFails | resources/app.go:353-361 | one failing member fails the whole listing with the error of the first member that fails |
| Membership.MembersAllOrNothing | resources/app.go:347-365 | `membersGet` succeeds exactly when every member's lookup gives one name; otherwise the reply is a failing member's error |
| Membership.MembersGet | resources/app.go:340-366 | the handler's loop fills one slot per member and returns what `Members` specifies |
| Membership.LeaderName | resources/app.go:306-335 | no leader gives the empty name; a leader gives the table's name for its own host, exactly when that host is in the table, and "Unknown node" otherwise |
| Membership.LeaderGetAsWritten | resources/app.go:327-337 | as written, a leader reply is the quoted name followed by `)`, and it is never a quoted string |
| Membership.LeaderGet | resources/app.go:327-337 | a leader reply unquotes to exactly the leader's name, or empty when there is no leader |
| Membership.LeaderKnownAddress | resources/app.go:319-335 | a leader at a tabled IP's dqlite port is reported by that IP's public name |
| Startup.Addresses | resources/app.go:41-66 | each name becomes `name:8081`, in order |
| Startup.AddressesAppend | resources/app.go:41-66 | addressing commutes with putting lists together |
| Startup.Position | resources/app.go:43-50 | the position of the first occurrence of the node, or the length of the list exactly when the node is absent |
| Startup.WithoutMembers | resources/app.go:58-61 | exactly the names other than the node survive |
| Startup.WithoutAbsent | resources/app.go:58-61 | a list without the node is left as it is |
| Startup.WithoutAppend | resources/app.go:58-61 | filtering commutes with putting lists together |
| Startup.PreceedingAddresses | resources/app.go:41-53 | the loop returns the addresses of exactly the names before the first occurrence of the node, and none when it is absent |
| Startup.OtherAddresses | resources/app.go:56-66 | the loop returns the addresses of every name other than the node, in order |
| Startup.PrecedingPrefix | resources/app.go:41-66 | for a node in the list, the preceding addresses are a prefix of the other addresses |
| Startup.AbsentNode | resources/app.go:41-66 | for a node not in the list, a first start joins through nobody and a rejoin joins through every listed node |
| Startup.OthersExclude | resources/app.go:56-66 | an address is in the rejoin list exactly when it is `name:8081` for a listed name other than the node |
| Startup.Configure | resources/app.go:470-488 | the options are: the node's own address on the dqlite port; the other addresses when rejoining, otherwise the preceding ones; and the voter count only for more than one node |
| Startup.VotersSet | resources/app.go:470-488 | the voter count is set exactly when the `-cluster` flag holds a comma |
| Startup.FirstNodeBootstraps | resources/app.go:41-53 | on a first start, the first listed node joins through nobody |
| Startup.CreateSchema | resources/app.go:509-523 | the retry loop ends as `Schema` specifies |
| Startup.SchemaSkip | resources/app.go:518-520 | busy attempts are retried |
| Startup.SchemaFrom | resources/app.go:510-523 | each outcome tells which attempt ended the loop and that all attempts before it were busy |
| Startup.SchemaCreated | resources/app.go:510-514 | the schema is created at attempt n exactly when attempt n succeeds after n - 1 busy attempts |
| Startup.SchemaFatal | resources/app.go:518-522 | start-up stops on a non-busy error at attempt n below the tenth exactly when the attempts before it were busy |
| Startup.SchemaLocked | resources/app.go:515-517 | start-up reports the store as still locked exactly when nine busy attempts are followed by a tenth failure of any kind |

## Left out

- HTTP and process plumbing in `main`:
  - flag parsing;
  - `fileExists` and the `rejoin` marker file (its truth value is a parameter of `Configure`);
  - the `removed` marker file: when it exists, `main` returns before it builds any option (app.go:465-468), and no member models that early exit;
  - `app.New`, `Ready` and `Open`;
  - routing, the listener, signals, `Handover` and `Close`;
  - rendering an error as "Error: ..." (errors stay values).
  These are I/O and concurrency.
- Go strings are byte strings. `string` here stands for a sequence of bytes, one `char` per byte. Every delimiter the handlers look for is ASCII, so no character decoding is involved.
- SQL semantics and column affinity. The table holds integers. A non-integer key or value is refused by the collaborator (`Rejected`). SQLite would store or compare text instead.
- Statement faults stand in for scan errors and `rows.Err()` during a read. Each statement has one injected outcome.
- The order of `SELECT value FROM map WHERE key=?` and `SELECT key, value FROM map` is the table order of this abstract store. The query has no `ORDER BY`, so this order is this model's choice, not a promise of the code.
- Store.AddTo: balances are unbounded integers. SQLite would turn an overflowing 64-bit sum into a floating-point value.
- On a panic, the open transaction is neither rolled back nor committed. The model reports the panic with the committed table unchanged and does not model the leaked transaction.
- `setGet` and `setPost`. They insert and read rows with a NULL key and a text value, which the integer row model does not represent. Each is a single statement with no decision in it.
- DNS: `net.LookupAddr` and `net.ResolveIPAddr` are function parameters. The IP of the node itself is a parameter of `Configure`.
- Context deadlines and request timeouts, the 250 ms sleep between schema attempts, and logging. These are timing and I/O.
- Membership.MembersDelete: whether the removal RPC succeeded is an injected outcome. The membership snapshot is not updated after a removal.
- Startup.CreateSchema: `log.Fatalf` ends the process. The model returns `Locked` or `Fatal` as an outcome instead.

## Findings

| source | as written | input that shows it | evidently intended | confidence | as-written member | corrected member |
|---|---|---|---|---|---|---|
| resources/app.go:337 | the leader's name is rendered as a double-quoted string followed by a stray `)` | any leader whose host is in the table, e.g. at `172.31.83.238:8081`, or no leader (reply `"")`) | the name as a double-quoted string, `"ec2-34-239-159-119.compute-1.amazonaws.com"`, quoted the way `membersGet` quotes names at app.go:362 | high; not executed | Membership.LeaderGetAsWritten | Membership.LeaderGet |
| resources/app.go:229 | the `err` declared by the type assertion hides the transaction's error, so `return "", err` returns driver.Error's zero value when the error is not a driver.Error | a BEGIN or COMMIT that fails with a lost connection (`driver.ErrBadConn`) or a finished transaction (`sql.ErrTxDone`); the reply is an empty driver error | the transaction's own error is the reply | medium; not executed | Bank.TolerateAsWritten | Bank.Tolerate |

=== FILE: append.dfy ===
/** The `/append` handler (`appendPost`): a batch `[[op k v] [op k v] ...]`
    of reads and appends interpreted inside one transaction, with a rendered
    result that mirrors the batch element by element. */
module Append {
  import opened Common
  import opened Text
  import opened Store

  /** One batch element, with its tokens exactly as sent. */
  datatype Op = Read(key: string) | Append(key: string, value: string)

  /** The syntax of one element's text (between its `[` and the first `]`):
      exactly three tokens when split on single spaces, `:r k nil` or
      `:append k v`. */
  function ParseOp(text: string): Option<Op>
  {
    var op := Split(text, " ");
    if |op| != 3 then None
    else if op[0] == ":r" then (if op[2] == "nil" then Some(Read(op[1])) else None)
    else if op[0] == ":append" then Some(Append(op[1], op[2]))
    else None
  }

  /** An element text that parses is exactly the rendering of the operation
      it parses to: nothing else is accepted. */
  lemma ParseOpRendered(text: string)
    ensures ParseOp(text).Some? ==> OpText(ParseOp(text).value) == text
  {
    var op := Split(text, " ");
    JoinSplit(text, " ");
    if ParseOp(text).Some? {
      assert op == OpParts(ParseOp(text).value);
    }
  }

  /** The tokens of one element as the test client writes it:
      `:r k nil` or `:append k v`. */
  function OpParts(op: Op): seq<string>
  {
    match op
    case Read(k) => [":r", k, "nil"]
    case Append(k, v) => [":append", k, v]
  }

  /** The text of one element between its brackets: its tokens separated by
      single spaces. */
  function OpText(op: Op): string
  {
    Join(OpParts(op), " ")
  }

  /** How the next element is cut from the remaining body: the body is empty,
      it does not start with an element, or it holds an element's text (up to
      the first `]`) and, unless that `]` ends the body, the rest after exactly
      one more character of any kind. */
  datatype Cut = Empty | Malformed | Elem(text: string, rest: Option<string>)

  function CutElement(v: string): (c: Cut)
    ensures c.Empty? <==> |v| == 0
    ensures c.Elem? && c.rest.Some? ==> |c.rest.value| < |v|
  {
    if |v| == 0 then Empty
    else if v[0] != '[' then Malformed
    else
      var w := v[1..];
      var i := Index(w, "]");
      if i < 0 then Malformed
      else if i == |w| - 1 then Elem(w[..i], None)
      else Elem(w[..i], Some(w[i + 2..]))
  }

  /** What a cut is: the element is the text between a leading `[` and the
      first `]`, and the rest is what follows that `]` and exactly one more
      character of any kind; a body that does not start with `[`, or holds no
      `]` after it, is malformed. */
  lemma CutElementCuts(v: string)
    ensures var c := CutElement(v);
      (c.Elem? ==>
        v[0] == '[' && ']' !in c.text && |v| >= |c.text| + 2 &&
        v[1..|c.text| + 1] == c.text && v[|c.text| + 1] == ']') &&
      (c.Elem? && c.rest.None? ==> |v| == |c.text| + 2) &&
      (c.Elem? && c.rest.Some? ==> |v| >= |c.text| + 3 && c.rest.value == v[|c.text| + 3..]) &&
      (c.Malformed? <==> |v| > 0 && (v[0] != '[' || ']' !in v[1..]))
  {
    if |v| > 0 && v[0] == '[' {
      IndexCharFirst(v[1..], ']');
    }
  }

  /** How cutting a body ends: after an element whose `]` ends the body,
      at a remainder that is not an element, or at an empty remainder. */
  datatype Ending = Closed | BadCut | EmptyCut

  /** The whole body cut into element texts, front to back, up to where the
      cutting stops. Cutting never depends on what the elements do. */
  datatype Cuts = Cuts(texts: seq<string>, ending: Ending)

  function CutAll(v: string): (c: Cuts)
    ensures c.ending.Closed? ==> |c.texts| >= 1
    decreases |v|
  {
    match CutElement(v)
    case Empty => Cuts([], EmptyCut)
    case Malformed => Cuts([], BadCut)
    case Elem(text, None) => Cuts([text], Closed)
    case Elem(text, Some(r)) =>
      var rest := CutAll(r);
      Cuts([text] + rest.texts, rest.ending)
  }

  /** Each element text parsed on its own. */
  function ParseEach(texts: seq<string>): (ps: seq<Option<Op>>)
    ensures |ps| == |texts|
  {
    if texts == [] then [] else [ParseOp(texts[0])] + ParseEach(texts[1..])
  }

  /** All the operations, or None if one element is malformed. */
  function AllParsed(ps: seq<Option<Op>>): (r: Option<seq<Op>>)
    ensures r.Some? ==> |r.value| == |ps|
  {
    if ps == [] then Some([])
    else match (ps[0], AllParsed(ps[1..]))
      case (Some(op), Some(ops)) => Some([op] + ops)
      case _ => None
  }

  /** The grammar of a batch body (the text inside the outer brackets): one
      or more elements, cut as `CutElement` does up to the closing one, each
      of valid syntax. */
  function ParseOps(v: string): (r: Option<seq<Op>>)
    ensures r.Some? ==> |r.value| >= 1
  {
    var c := CutAll(v);
    if c.ending.Closed? then AllParsed(ParseEach(c.texts)) else None
  }

  function ReadText(key: string, vs: seq<int>): string
  {
    "[:r " + key + " " + IntList(vs) + "]"
  }

  function AppendText(key: string, value: string): string
  {
    "[:append " + key + " " + value + "]"
  }

  /** The effect of one element on the transaction's table. */
  datatype Step = Rendered(text: string, rows: seq<Row>) | Refused(error: Error)

  /** One parsed element executed against the table, with the collaborator's
      answer for its statement. */
  function Execute(op: Op, rows: seq<Row>, fault: Option<DbError>): (s: Step)
    ensures fault.Some? ==> s == Refused(Db(fault.value))
  {
    match op
    case Read(k) =>
      (match Query(rows, k, fault)
       case Failure(e) => Refused(Db(e))
       case Success(vs) => Rendered(ReadText(k, vs), rows))
    case Append(k, v) =>
      (match Insert(rows, k, v, fault)
       case Failure(e) => Refused(Db(e))
       case Success(after) => Rendered(AppendText(k, v), after))
  }

  /** A read leaves the table alone; an append echoes its tokens and adds
      exactly one row, the key and value as the store reads them. */
  lemma ExecuteEffect(op: Op, rows: seq<Row>, fault: Option<DbError>)
    requires Execute(op, rows, fault).Rendered?
    ensures var s := Execute(op, rows, fault);
      fault.None? &&
      (op.Read? ==> s.text == ReadText(op.key, Select(rows, Atoi(op.key))) && s.rows == rows) &&
      (op.Append? ==> s.text == AppendText(op.key, op.value) && s.rows == rows + [Row(Atoi(op.key), Atoi(op.value))])
  {
  }

  /** One element's text, checked and executed: any syntax problem is a bad
      request and issues no statement. */
  function Element(text: string, rows: seq<Row>, fault: Option<DbError>): Step
  {
    Perform(ParseOp(text), rows, fault)
  }

  /** A parsed element executed, a malformed one refused. */
  function Perform(p: Option<Op>, rows: seq<Row>, fault: Option<DbError>): Step
  {
    match p
    case None => Refused(BadRequest)
    case Some(op) => Execute(op, rows, fault)
  }

  /** How the element loop ends. */
  datatype Outcome = Done(text: string, rows: seq<Row>) | Stopped(error: Error) | Crashed(cause: Panic)

  function Prepend(p: string, o: Outcome): Outcome
  {
    match o
    case Done(s, rows) => Done(p + s, rows)
    case _ => o
  }

  /** The element loop of `appendPost` over the parsed elements still to
      run: element number `idx` is next, `stmt` gives the collaborator's answer
      per element. Running out of elements ends as the cutting ended: an
      empty remainder is an index-out-of-range panic. */
  function Run(ps: seq<Option<Op>>, ending: Ending, rows: seq<Row>, idx: nat, stmt: nat -> Option<DbError>): Outcome
    decreases |ps|
  {
    if ps == [] then
      match ending
      case Closed => Done("]", rows)
      case BadCut => Stopped(BadRequest)
      case EmptyCut => Crashed(IndexOutOfRange)
    else match Perform(ps[0], rows, stmt(idx))
      case Refused(e) => Stopped(e)
      case Rendered(s, after) =>
        if |ps| == 1 && ending.Closed? then Done(s + "]", after)
        else Prepend(s + " ", Run(ps[1..], ending, after, idx + 1, stmt))
  }

  /** The element loop on a remaining body. */
  function Batch(v: string, rows: seq<Row>, idx: nat, stmt: nat -> Option<DbError>): Outcome
  {
    var c := CutAll(v);
    Run(ParseEach(c.texts), c.ending, rows, idx, stmt)
  }

  /** The transaction body of `appendPost`. */
  function Body(value: string, rows: seq<Row>, stmt: nat -> Option<DbError>): TxBody
  {
    if |value| == 0 then Panics(IndexOutOfRange)
    else if value[0] != '[' || value[|value| - 1] != ']' then Aborts(BadRequest)
    else match Batch(value[1..|value| - 1], rows, 0, stmt)
      case Done(s, after) => Commits("[" + s, after)
      case Stopped(e) => Aborts(e)
      case Crashed(p) => Panics(p)
  }

  lemma PrependAssoc(a: string, b: string, o: Outcome)
    ensures Prepend(a, Prepend(b, o)) == Prepend(a + b, o)
  {
    if o.Done? {
      assert a + (b + o.text) == (a + b) + o.text;
    }
  }

  /** One step of the element loop on a body that starts with an element. */
  lemma BatchStep(v: string, rows: seq<Row>, idx: nat, stmt: nat -> Option<DbError>)
    requires CutElement(v).Elem?
    ensures var c := CutElement(v);
      Batch(v, rows, idx, stmt) ==
        match Element(c.text, rows, stmt(idx))
        case Refused(e) => Stopped(e)
        case Rendered(s, after) =>
          match c.rest
          case None => Done(s + "]", after)
          case Some(r) => Prepend(s + " ", Batch(r, after, idx + 1, stmt))
  {
    var c := CutElement(v);
    var cs := CutAll(v);
    assert ParseEach(cs.texts)[0] == ParseOp(c.text);
    if c.rest.Some? {
      assert ParseEach(cs.texts)[1..] == ParseEach(CutAll(c.rest.value).texts);
    }
  }

  /** The loop stops at an element that is refused. */
  lemma BatchRefused(v: string, rows: seq<Row>, idx: nat, stmt: nat -> Option<DbError>)
    requires CutElement(v).Elem? && Element(CutElement(v).text, rows, stmt(idx)).Refused?
    ensures Batch(v, rows, idx, stmt) == Stopped(Element(CutElement(v).text, rows, stmt(idx)).error)
  {
    BatchStep(v, rows, idx, stmt);
  }

  /** The loop renders an element that runs, then ends or goes on. */
  lemma BatchRendered(v: string, rows: seq<Row>, idx: nat, stmt: nat -> Option<DbError>, s: string, after: seq<Row>)
    requires CutElement(v).Elem? && Element(CutElement(v).text, rows, stmt(idx)) == Rendered(s, after)
    ensures var c := CutElement(v);
      Batch(v, rows, idx, stmt) ==
        if c.rest.None? then Done(s + "]", after) else Prepend(s + " ", Batch(c.rest.value, after, idx + 1, stmt))
  {
    BatchStep(v, rows, idx, stmt);
  }

  /** `appendPost` as a function of the committed table: the reply and the
      table afterwards. */
  function Interpret(value: string, rows: seq<Row>, script: Script): (Reply, seq<Row>)
  {
    Settle(rows, script, Body(value, rows, script.stmt))
  }

  /** One element's text handled inside the open transaction. */
  method RunElement(db: Db, text: string, fault: Option<DbError>) returns (rendered: string, err: Option<Error>)
    requires db.open
    modifies db`work
    ensures match Element(text, old(db.work), fault)
      case Rendered(s, after) => err.None? && rendered == s && db.work == after
      case Refused(e) => err == Some(e) && db.work == old(db.work)
  {
    rendered := "";
    var op := Split(text, " ");
    if |op| != 3 {
      return "", Some(BadRequest);
    }
    if op[0] == ":r" {
      if op[2] != "nil" {
        return "", Some(BadRequest);
      }
      var q := db.Read(op[1], fault);
      if q.Failure? {
        return "", Some(Db(q.error));
      }
      rendered := ReadText(op[1], q.value);
      err := None;
    } else if op[0] == ":append" {
      var e := db.Add(op[1], op[2], fault);
      if e.Some? {
        return "", Some(Db(e.value));
      }
      rendered := AppendText(op[1], op[2]);
      err := None;
    } else {
      err := Some(BadRequest);
    }
  }

  /** The element loop of the transaction body of `appendPost`, on the text
      between the outer brackets: it runs the elements one by one on the open
      transaction and ends as `Batch` specifies. */
  method RunBatch(db: Db, body: string, stmt: nat -> Option<DbError>) returns (o: Outcome)
    requires db.open
    modifies db`work
    ensures o == Batch(body, old(db.work), 0, stmt)
    ensures o.Done? ==> db.work == o.rows
  {
    var v := body;
    var result := "";
    var idx: nat := 0;
    while true
      invariant db.open
      invariant Prepend(result, Batch(v, db.work, idx, stmt)) == Batch(body, old(db.work), 0, stmt)
      decreases |v|
    {
      if |v| == 0 {
        return Crashed(IndexOutOfRange);
      }
      if v[0] != '[' {
        return Stopped(BadRequest);
      }
      var w := v[1..];
      var i := Index(w, "]");
      if i == -1 {
        return Stopped(BadRequest);
      }
      ghost var rest := if i == |w| - 1 then None else Some(w[i + 2..]);
      assert CutElement(v) == Elem(w[..i], rest);
      ghost var before := db.work;
      var s, e := RunElement(db, w[..i], stmt(idx));
      if e.Some? {
        BatchRefused(v, before, idx, stmt);
        return Stopped(e.value);
      }
      BatchRendered(v, before, idx, stmt, s, db.work);
      if i == |w| - 1 {
        PrependAssoc(result, s + "]", Done("", db.work));
        return Done(result + (s + "]"), db.work);
      }
      ghost var next := Batch(w[i + 2..], db.work, idx + 1, stmt);
      PrependAssoc(result, s + " ", next);
      v := w[i + 2..];
      result := result + (s + " ");
      idx := idx + 1;
    }
  }

  /** `appendPost` run against the database handle. */
  method AppendPost(db: Db, value: string, script: Script) returns (r: Reply)
    modifies db
    ensures (r, db.rows) == Interpret(value, old(db.rows), script)
    ensures !r.Text? ==> db.rows == old(db.rows)
  {
    var err := db.Begin(script.begin);
    if err.Some? {
      return Failed(Db(err.value));
    }
    if |value| == 0 {
      return Panicked(IndexOutOfRange);
    }
    var result := "[";
    var bodyErr: Option<Error> := None;
    if value[0] != '[' || value[|value| - 1] != ']' {
      bodyErr := Some(BadRequest);
    } else {
      var o := RunBatch(db, value[1..|value| - 1], script.stmt);
      match o
      case Crashed(p) => return Panicked(p);
      case Stopped(e) => bodyErr := Some(e);
      case Done(s, _) => result := "[" + s;
    }
    var e := db.Finish(bodyErr, script.commit);
    if e.Some? {
      r := Failed(e.value);
    } else {
      r := Text(result);
    }
  }
}

/** The meaning of a well-formed batch, independent of the interpreter's
    string handling: its operations executed in order, and what a successful
    `/append` reply and table are. */
module AppendMeaning {
  import opened Common
  import opened Text
  import opened Store
  import opened Append

  datatype Trace = Trace(texts: seq<string>, rows: seq<Row>)

  /** Operations executed in order with no collaborator failure. */
  function RunAll(ops: seq<Op>, rows: seq<Row>): Result<Trace, Error>
    decreases |ops|
  {
    if ops == [] then Success(Trace([], rows))
    else match Execute(ops[0], rows, None)
      case Refused(e) => Failure(e)
      case Rendered(s, after) =>
        match RunAll(ops[1..], after)
        case Failure(e) => Failure(e)
        case Success(t) => Success(Trace([s] + t.texts, t.rows))
  }

  /** The character after an element's `]` is skipped whatever it is, so
      elements written back to back, `[...][...]`, lose the second element's
      `[`: the batch is a bad request and nothing is committed. */
  lemma AdjacentElementsRejected(t1: string, t2: string, rows: seq<Row>, idx: nat, stmt: nat -> Option<DbError>)
    requires ']' !in t1 && Element(t1, rows, stmt(idx)).Rendered?
    requires |t2| > 0 && t2[0] != '['
    ensures Batch("[" + t1 + "][" + t2, rows, idx, stmt) == Stopped(BadRequest)
  {
    var v := "[" + t1 + "][" + t2;
    var w := t1 + "][" + t2;
    assert v[1..] == w && v[0] == '[';
    IndexChar(w, ']', |t1|);
    assert w[..|t1|] == t1;
    assert w[|t1| + 2..] == t2;
    assert CutElement(v) == Elem(t1, Some(t2));
    BatchStep(v, rows, idx, stmt);
    assert CutElement(t2) == Malformed;
    assert Batch(t2, Element(t1, rows, stmt(idx)).rows, idx + 1, stmt) == Stopped(BadRequest);
  }

  /** The rows one operation adds. */
  function Adds(op: Op): seq<Row>
  {
    match op
    case Read(_) => []
    case Append(k, v) => [Row(Atoi(k), Atoi(v))]
  }

  /** The rows the appends of a batch add, in batch order. */
  function Appended(ops: seq<Op>): seq<Row>
  {
    if ops == [] then [] else Adds(ops[0]) + Appended(ops[1..])
  }

  lemma ExecuteAdds(op: Op, rows: seq<Row>)
    requires Execute(op, rows, None).Rendered?
    ensures Execute(op, rows, None).rows == rows + Adds(op)
  {
    ExecuteEffect(op, rows, None);
  }

  /** A successful run renders one text per operation and adds exactly the
      appended rows after the table. */
  lemma {:induction false} RunAllRows(ops: seq<Op>, rows: seq<Row>)
    requires RunAll(ops, rows).Success?
    ensures |RunAll(ops, rows).value.texts| == |ops|
    ensures RunAll(ops, rows).value.rows == rows + Appended(ops)
    decreases |ops|
  {
    if ops != [] {
      var step := Execute(ops[0], rows, None);
      assert step.Rendered?;
      RunAllStep(ops[0], ops[1..], rows);
      assert [ops[0]] + ops[1..] == ops;
      var t' := RunAll(ops[1..], step.rows).value;
      RunAllRows(ops[1..], step.rows);
      ExecuteAdds(ops[0], rows);
      assert Appended(ops) == Adds(ops[0]) + Appended(ops[1..]);
      assert (rows + Adds(ops[0])) + Appended(ops[1..]) == rows + (Adds(ops[0]) + Appended(ops[1..]));
    }
  }

  /** A successful run echoes each append's tokens verbatim. */
  lemma {:induction false} RunAllEcho(ops: seq<Op>, rows: seq<Row>, j: nat)
    requires RunAll(ops, rows).Success? && j < |ops| && ops[j].Append?
    ensures |RunAll(ops, rows).value.texts| == |ops|
    ensures RunAll(ops, rows).value.texts[j] == AppendText(ops[j].key, ops[j].value)
    decreases |ops|
  {
    RunAllRows(ops, rows);
    var step := Execute(ops[0], rows, None);
    var t' := RunAll(ops[1..], step.rows).value;
    assert RunAll(ops, rows).value.texts == [step.text] + t'.texts;
    ExecuteEffect(ops[0], rows, None);
    if j > 0 {
      assert ops[j] == ops[1..][j - 1];
      RunAllEcho(ops[1..], step.rows, j - 1);
    }
  }

  /** A successful run renders each read with the values its key holds at
      that point: the table the batch started from, followed by the rows the
      earlier appends of the same batch added. */
  lemma {:induction false} RunAllRead(ops: seq<Op>, rows: seq<Row>, j: nat)
    requires RunAll(ops, rows).Success? && j < |ops| && ops[j].Read?
    ensures |RunAll(ops, rows).value.texts| == |ops|
    ensures RunAll(ops, rows).value.texts[j] ==
      ReadText(ops[j].key, Select(rows + Appended(ops[..j]), Atoi(ops[j].key)))
    decreases |ops|
  {
    RunAllRows(ops, rows);
    var step := Execute(ops[0], rows, None);
    var t' := RunAll(ops[1..], step.rows).value;
    assert RunAll(ops, rows).value.texts == [step.text] + t'.texts;
    if j == 0 {
      ExecuteEffect(ops[0], rows, None);
      assert rows + Appended(ops[..0]) == rows;
    } else {
      ExecuteAdds(ops[0], rows);
      assert ops[j] == ops[1..][j - 1];
      RunAllRead(ops[1..], step.rows, j - 1);
      AppendedPrefix(ops, rows, j);
    }
  }

  lemma AppendedPrefix(ops: seq<Op>, rows: seq<Row>, j: nat)
    requires 0 < j <= |ops|
    ensures rows + Adds(ops[0]) + Appended(ops[1..][..j - 1]) == rows + Appended(ops[..j])
  {
    assert ops[..j][1..] == ops[1..][..j - 1];
    assert Appended(ops[..j]) == Adds(ops[0]) + Appended(ops[1..][..j - 1]);
  }

  predicate NoFaults(stmt: nat -> Option<DbError>, from: nat, n: nat)
  {
    forall j: nat :: from <= j < from + n ==> stmt(j).None?
  }

  /** One step of a fault-free run. */
  lemma RunAllStep(op: Op, ops: seq<Op>, rows: seq<Row>)
    requires Execute(op, rows, None).Rendered?
    ensures var e := Execute(op, rows, None);
      RunAll([op] + ops, rows) ==
        match RunAll(ops, e.rows)
        case Failure(err) => Failure(err)
        case Success(t) => Success(Trace([e.text] + t.texts, t.rows))
  {
    assert ([op] + ops)[0] == op && ([op] + ops)[1..] == ops;
  }

  lemma PerformRendered(p: Option<Op>, rows: seq<Row>, fault: Option<DbError>)
    requires Perform(p, rows, fault).Rendered?
    ensures p.Some? && fault.None?
  {
  }

  /** Whenever the element loop completes over at least one element, the
      cutting closed, every element parses, no statement failed, and the text
      is the per-operation renderings joined by single spaces and closed by
      `]`. */
  lemma {:induction false} RunDone(ps: seq<Option<Op>>, ending: Ending, rows: seq<Row>, idx: nat, stmt: nat -> Option<DbError>)
    requires |ps| >= 1 && Run(ps, ending, rows, idx, stmt).Done?
    ensures ending.Closed? && AllParsed(ps).Some?
    ensures var ops := AllParsed(ps).value;
      RunAll(ops, rows).Success? &&
      NoFaults(stmt, idx, |ops|) &&
      Run(ps, ending, rows, idx, stmt) == Done(Join(RunAll(ops, rows).value.texts, " ") + "]", RunAll(ops, rows).value.rows)
    decreases |ps|
  {
    PerformRendered(ps[0], rows, stmt(idx));
    var op := ps[0].value;
    assert stmt(idx).None?;
    var step := Execute(op, rows, None);
    assert Perform(ps[0], rows, stmt(idx)) == step;
    if |ps| == 1 {
      assert ps[1..] == [] && AllParsed(ps[1..]) == Some([]);
      assert ending.Closed?;
      assert AllParsed(ps).value == [op];
      RunAllStep(op, [], rows);
      assert [op] + [] == [op];
      assert [step.text] + [] == [step.text];
    } else {
      RunDone(ps[1..], ending, step.rows, idx + 1, stmt);
      var ops' := AllParsed(ps[1..]).value;
      assert AllParsed(ps).value == [op] + ops';
      RunAllStep(op, ops', rows);
      var t' := RunAll(ops', step.rows).value;
      RunAllRows(ops', step.rows);
      JoinCons(step.text, t'.texts, " ");
    }
  }

  /** Conversely, closed elements that all parse, whose operations run, and
      whose statements all succeed complete the loop with exactly that text
      and table. */
  lemma {:induction false} RunOfParsed(ps: seq<Option<Op>>, rows: seq<Row>, idx: nat, stmt: nat -> Option<DbError>)
    requires |ps| >= 1 && AllParsed(ps).Some?
    requires RunAll(AllParsed(ps).value, rows).Success?
    requires NoFaults(stmt, idx, |ps|)
    ensures var t := RunAll(AllParsed(ps).value, rows).value;
      Run(ps, Closed, rows, idx, stmt) == Done(Join(t.texts, " ") + "]", t.rows)
    decreases |ps|
  {
    var op := ps[0].value;
    var ops' := AllParsed(ps[1..]).value;
    var ops := AllParsed(ps).value;
    assert ops == [op] + ops';
    assert stmt(idx).None?;
    var step := Execute(op, rows, None);
    assert Perform(ps[0], rows, stmt(idx)) == step;
    RunAllStep(op, ops', rows);
    if |ps| == 1 {
      assert ops' == [];
      assert [step.text] + [] == [step.text];
    } else {
      assert NoFaults(stmt, idx + 1, |ps[1..]|);
      assert Run(ps, Closed, rows, idx, stmt) == Prepend(step.text + " ", Run(ps[1..], Closed, step.rows, idx + 1, stmt));
      RunOfParsed(ps[1..], step.rows, idx + 1, stmt);
      var t' := RunAll(ops', step.rows).value;
      RunAllRows(ops', step.rows);
      JoinCons(step.text, t'.texts, " ");
    }
  }

  /** The same two facts for a whole remaining body. */
  lemma BatchDoneParses(v: string, rows: seq<Row>, idx: nat, stmt: nat -> Option<DbError>)
    requires Batch(v, rows, idx, stmt).Done?
    ensures ParseOps(v).Some?
    ensures var ops := ParseOps(v).value;
      RunAll(ops, rows).Success? &&
      NoFaults(stmt, idx, |ops|) &&
      Batch(v, rows, idx, stmt) == Done(Join(RunAll(ops, rows).value.texts, " ") + "]", RunAll(ops, rows).value.rows)
  {
    var c := CutAll(v);
    RunDone(ParseEach(c.texts), c.ending, rows, idx, stmt);
  }

  lemma BatchOfParsed(v: string, rows: seq<Row>, idx: nat, stmt: nat -> Option<DbError>)
    requires ParseOps(v).Some?
    requires RunAll(ParseOps(v).value, rows).Success?
    requires NoFaults(stmt, idx, |ParseOps(v).value|)
    ensures var t := RunAll(ParseOps(v).value, rows).value;
      Batch(v, rows, idx, stmt) == Done(Join(t.texts, " ") + "]", t.rows)
  {
    var c := CutAll(v);
    RunOfParsed(ParseEach(c.texts), rows, idx, stmt);
  }

  /** A successful `/append`: the body is `[` + elements + `]`, the elements
      parse, the reply is `[` + one rendering per operation joined by single
      spaces + `]`, and the table gained exactly the appended rows, in order. */
  lemma AppendSucceeds(value: string, rows: seq<Row>, script: Script)
    requires Interpret(value, rows, script).0.Text?
    ensures |value| >= 2 && value[0] == '[' && value[|value| - 1] == ']'
    ensures var inner := value[1..|value| - 1];
      ParseOps(inner).Some? &&
      var ops := ParseOps(inner).value;
      RunAll(ops, rows).Success? &&
      var t := RunAll(ops, rows).value;
      Interpret(value, rows, script) == (Text("[" + Join(t.texts, " ") + "]"), rows + Appended(ops)) &&
      |t.texts| == |ops|
  {
    var inner := value[1..|value| - 1];
    BatchDoneParses(inner, rows, 0, script.stmt);
    var ops := ParseOps(inner).value;
    RunAllRows(ops, rows);
    var j := Join(RunAll(ops, rows).value.texts, " ");
    assert "[" + (j + "]") == "[" + j + "]";
  }

  /** And every well-formed batch whose operations run succeeds when the
      collaborator reports no failure. */
  lemma AppendOfParsed(value: string, rows: seq<Row>, script: Script)
    requires |value| >= 2 && value[0] == '[' && value[|value| - 1] == ']'
    requires ParseOps(value[1..|value| - 1]).Some?
    requires RunAll(ParseOps(value[1..|value| - 1]).value, rows).Success?
    requires script.begin.None? && script.commit.None?
    requires forall j: nat :: script.stmt(j).None?
    ensures Interpret(value, rows, script).0.Text?
  {
    BatchOfParsed(value[1..|value| - 1], rows, 0, script.stmt);
  }

  /** A body that is not bracketed is a bad request that changes nothing. */
  lemma NotBracketed(value: string, rows: seq<Row>, script: Script)
    requires script.begin.None?
    requires |value| > 0 && (value[0] != '[' || value[|value| - 1] != ']')
    ensures Interpret(value, rows, script) == (Failed(BadRequest), rows)
  {
  }

  /** An empty body and `[]` index past the end of the remaining text: a
      panic, not an error reply, and nothing is committed (a separator after
      the last element of any batch is `EmptyCutCrashes`). */
  lemma EmptyBatchPanics(rows: seq<Row>, script: Script)
    requires script.begin.None?
    ensures Interpret("", rows, script) == (Panicked(IndexOutOfRange), rows)
    ensures Interpret("[]", rows, script) == (Panicked(IndexOutOfRange), rows)
  {
    assert "[]"[1..1] == "";
  }

  /** The smallest instance of `EmptyCutCrashes`: one character after a
      single element's `]` leaves an empty remainder, whose first character
      the loop then reads; once that element has run, the request panics
      and nothing is committed. */
  lemma TrailingSeparatorPanics(t: string, c: char, rows: seq<Row>, script: Script)
    requires script.begin.None?
    requires ']' !in t && Element(t, rows, script.stmt(0)).Rendered?
    ensures Interpret("[[" + t + "]" + [c] + "]", rows, script) == (Panicked(IndexOutOfRange), rows)
  {
    var value := "[[" + t + "]" + [c] + "]";
    var v := "[" + t + "]" + [c];
    assert value[1..|value| - 1] == v;
    TrailingSeparatorCrashes(t, c, rows, script.stmt);
    assert Body(value, rows, script.stmt) == Panics(IndexOutOfRange);
  }

  lemma TrailingSeparatorCrashes(t: string, c: char, rows: seq<Row>, stmt: nat -> Option<DbError>)
    requires ']' !in t && Element(t, rows, stmt(0)).Rendered?
    ensures Batch("[" + t + "]" + [c], rows, 0, stmt) == Crashed(IndexOutOfRange)
  {
    var v := "[" + t + "]" + [c];
    var w := t + "]" + [c];
    assert v[1..] == w && v[0] == '[';
    IndexChar(w, ']', |t|);
    assert w[..|t|] == t;
    assert w[|t| + 2..] == "";
    assert CutElement(v) == Elem(t, Some(""));
    BatchStep(v, rows, 0, stmt);
    assert Batch("", Element(t, rows, stmt(0)).rows, 1, stmt) == Crashed(IndexOutOfRange);
  }

  /** The elements of a batch, each in its brackets. */
  function Elements(ops: seq<Op>): (es: seq<string>)
    ensures |es| == |ops|
  {
    if ops == [] then [] else ["[" + OpText(ops[0]) + "]"] + Elements(ops[1..])
  }

  /** A batch body as the test client renders it: the elements separated by
      single spaces, inside the outer brackets. */
  function BatchText(ops: seq<Op>): string
  {
    "[" + Join(Elements(ops), " ") + "]"
  }

  /** A token the batch format can carry: no space (the token separator) and
      no `]` (the element terminator). */
  predicate Plain(t: string)
  {
    ' ' !in t && ']' !in t
  }

  predicate PlainOp(op: Op)
  {
    Plain(op.key) && (op.Append? ==> Plain(op.value))
  }

  /** An element text built from plain tokens reads back as its operation. */
  lemma OpTextParses(op: Op)
    requires PlainOp(op)
    ensures ParseOp(OpText(op)) == Some(op)
    ensures ']' !in OpText(op)
  {
    var parts := OpParts(op);
    forall i | 0 <= i < |parts|
      ensures ' ' !in parts[i] && ']' !in parts[i]
    {
    }
    SplitJoin(parts, " ");
    ParseParts(OpText(op), parts);
    JoinClosed(parts);
  }

  /** No `]` appears in a join of parts that hold none. */
  lemma JoinClosed(parts: seq<string>)
    requires |parts| == 3 && forall i :: 0 <= i < |parts| ==> ']' !in parts[i]
    ensures ']' !in Join(parts, " ")
  {
    JoinCons(parts[0], parts[1..], " ");
    JoinCons(parts[1], parts[2..], " ");
    assert [parts[0]] + parts[1..] == parts && [parts[1]] + parts[2..] == parts[1..];
  }

  /** ParseOp reads an operation's three tokens back as that operation. */
  lemma ParseParts(text: string, parts: seq<string>)
    requires |parts| == 3 && Split(text, " ") == parts
    requires parts == [":r", parts[1], "nil"] || parts[0] == ":append"
    ensures parts[0] == ":r" ==> ParseOp(text) == Some(Read(parts[1]))
    ensures parts[0] == ":append" ==> ParseOp(text) == Some(Append(parts[1], parts[2]))
  {
    assert |":append"| != |":r"|;
  }

  /** Cutting the first of several rendered elements leaves the others. */
  lemma CutRendered(op: Op, rest: string)
    requires PlainOp(op)
    ensures CutElement("[" + OpText(op) + "]" + " " + rest) == Elem(OpText(op), Some(rest))
    ensures CutElement("[" + OpText(op) + "]") == Elem(OpText(op), None)
  {
    var t := OpText(op);
    OpTextParses(op);
    var w := t + "]" + " " + rest;
    assert ("[" + t + "]" + " " + rest)[1..] == w;
    IndexChar(w, ']', |t|);
    assert w[..|t|] == t && w[|t| + 2..] == rest;
    var w' := t + "]";
    assert ("[" + t + "]")[1..] == w';
    IndexChar(w', ']', |t|);
    assert w'[..|t|] == t;
  }

  /** A single rendered element parses as a batch of one. */
  lemma ParseOpsOne(op: Op)
    requires PlainOp(op)
    ensures ParseOps("[" + OpText(op) + "]") == Some([op])
  {
    var t := OpText(op);
    OpTextParses(op);
    CutRendered(op, "");
    assert CutAll("[" + t + "]") == Cuts([t], Closed);
    assert ParseEach([t]) == [Some(op)];
    assert [Some(op)][1..] == [] && [op] + [] == [op];
    assert AllParsed([Some(op)]) == Some([op]);
  }

  /** A rendered element in front of a batch adds its operation in front. */
  lemma ParseOpsCons(op: Op, rest: string)
    requires PlainOp(op) && ParseOps(rest).Some?
    ensures ParseOps("[" + OpText(op) + "]" + " " + rest) == Some([op] + ParseOps(rest).value)
  {
    var t := OpText(op);
    OpTextParses(op);
    CutRendered(op, rest);
    var c := CutAll(rest);
    assert CutAll("[" + t + "]" + " " + rest) == Cuts([t] + c.texts, c.ending);
    assert ([t] + c.texts)[1..] == c.texts;
    assert ParseEach([t] + c.texts) == [Some(op)] + ParseEach(c.texts);
    assert ([Some(op)] + ParseEach(c.texts))[1..] == ParseEach(c.texts);
  }

  /** The batch format round-trips: the elements of a non-empty batch of
      plain tokens, rendered as the test client does, parse back to the same
      operations. */
  lemma {:induction false} BatchRoundTrip(ops: seq<Op>)
    requires |ops| >= 1 && forall i :: 0 <= i < |ops| ==> PlainOp(ops[i])
    ensures ParseOps(Join(Elements(ops), " ")) == Some(ops)
    decreases |ops|
  {
    ElementsJoin(ops);
    if |ops| == 1 {
      assert [ops[0]] == ops;
      ParseOpsOne(ops[0]);
    } else {
      BatchRoundTrip(ops[1..]);
      ParseOpsCons(ops[0], Join(Elements(ops[1..]), " "));
      assert [ops[0]] + ops[1..] == ops;
    }
  }

  /** The rendered elements, joined, begin with the first element. */
  lemma ElementsJoin(ops: seq<Op>)
    requires |ops| >= 1
    ensures var e := "[" + OpText(ops[0]) + "]";
      Join(Elements(ops), " ") == if |ops| == 1 then e else e + " " + Join(Elements(ops[1..]), " ")
  {
    var e := "[" + OpText(ops[0]) + "]";
    assert Elements(ops) == [e] + Elements(ops[1..]);
    if |ops| == 1 {
      assert Elements(ops) == [e];
    } else {
      JoinCons(e, Elements(ops[1..]), " ");
    }
  }

  /** The same for the whole body: it is bracketed, and what the brackets
      hold parses back to the operations. */
  lemma BatchTextRoundTrip(ops: seq<Op>)
    requires |ops| >= 1 && forall i :: 0 <= i < |ops| ==> PlainOp(ops[i])
    ensures var b := BatchText(ops);
      |b| >= 2 && b[0] == '[' && b[|b| - 1] == ']' && ParseOps(b[1..|b| - 1]) == Some(ops)
  {
    BatchRoundTrip(ops);
    var b := BatchText(ops);
    assert b[1..|b| - 1] == Join(Elements(ops), " ");
  }

  /** Elements that parse and run fault-free up to the first malformed one:
      the loop stops there with a bad request. */
  lemma {:induction false} RunStopsAtMalformed(ps: seq<Option<Op>>, ending: Ending, rows: seq<Row>, idx: nat,
                                               stmt: nat -> Option<DbError>, j: nat)
    requires j < |ps| && ps[j].None?
    requires AllParsed(ps[..j]).Some? && RunAll(AllParsed(ps[..j]).value, rows).Success?
    requires NoFaults(stmt, idx, j)
    ensures Run(ps, ending, rows, idx, stmt) == Stopped(BadRequest)
    decreases j
  {
    if j > 0 {
      var ops := AllParsed(ps[..j]).value;
      assert ps[..j][0] == ps[0] && ps[..j][1..] == ps[1..][..j - 1];
      var op := ps[0].value;
      var ops' := AllParsed(ps[1..][..j - 1]).value;
      assert ops == [op] + ops';
      assert stmt(idx).None?;
      var step := Execute(op, rows, None);
      assert Perform(ps[0], rows, stmt(idx)) == step;
      RunAllStep(op, ops', rows);
      assert NoFaults(stmt, idx + 1, j - 1);
      assert ps[1..][j - 1] == ps[j];
      RunStopsAtMalformed(ps[1..], ending, step.rows, idx + 1, stmt, j - 1);
    }
  }

  /** A malformed element aborts the batch: once the elements before it have
      run without a fault, the reply is a bad request and nothing is
      committed, whatever the elements after it hold. */
  lemma MalformedElementRejected(value: string, rows: seq<Row>, script: Script, j: nat)
    requires script.begin.None?
    requires |value| >= 2 && value[0] == '[' && value[|value| - 1] == ']'
    requires var ps := ParseEach(CutAll(value[1..|value| - 1]).texts);
      j < |ps| && ps[j].None? &&
      AllParsed(ps[..j]).Some? && RunAll(AllParsed(ps[..j]).value, rows).Success?
    requires NoFaults(script.stmt, 0, j)
    ensures Interpret(value, rows, script) == (Failed(BadRequest), rows)
  {
    var c := CutAll(value[1..|value| - 1]);
    RunStopsAtMalformed(ParseEach(c.texts), c.ending, rows, 0, script.stmt, j);
  }

  /** Elements that all parse and run fault-free, followed by a remainder that
      is not an element (no `[` where one must start, or no `]` after it): the
      loop stops there with a bad request. */
  lemma {:induction false} RunStopsAtBadCut(ps: seq<Option<Op>>, rows: seq<Row>, idx: nat, stmt: nat -> Option<DbError>)
    requires AllParsed(ps).Some? && RunAll(AllParsed(ps).value, rows).Success?
    requires NoFaults(stmt, idx, |ps|)
    ensures Run(ps, BadCut, rows, idx, stmt) == Stopped(BadRequest)
    decreases |ps|
  {
    if ps != [] {
      var op := ps[0].value;
      var ops' := AllParsed(ps[1..]).value;
      assert AllParsed(ps).value == [op] + ops';
      assert stmt(idx).None?;
      var step := Execute(op, rows, None);
      assert Perform(ps[0], rows, stmt(idx)) == step;
      RunAllStep(op, ops', rows);
      assert NoFaults(stmt, idx + 1, |ps[1..]|);
      RunStopsAtBadCut(ps[1..], step.rows, idx + 1, stmt);
    }
  }

  /** A body whose cutting stops at a remainder that is not an element, after
      elements that parse and run fault-free, replies with a bad request and
      commits nothing. */
  lemma BadCutRejected(value: string, rows: seq<Row>, script: Script)
    requires script.begin.None?
    requires |value| >= 2 && value[0] == '[' && value[|value| - 1] == ']'
    requires var c := CutAll(value[1..|value| - 1]);
      var ps := ParseEach(c.texts);
      c.ending == BadCut && AllParsed(ps).Some? && RunAll(AllParsed(ps).value, rows).Success?
    requires NoFaults(script.stmt, 0, |CutAll(value[1..|value| - 1]).texts|)
    ensures Interpret(value, rows, script) == (Failed(BadRequest), rows)
  {
    var c := CutAll(value[1..|value| - 1]);
    RunStopsAtBadCut(ParseEach(c.texts), rows, 0, script.stmt);
  }

  /** Elements that all parse and run fault-free, followed by nothing where
      the loop reads the next character (a separator after the last element,
      or an empty body): the loop indexes past the end and panics. */
  lemma {:induction false} RunCrashesAtEmptyCut(ps: seq<Option<Op>>, rows: seq<Row>, idx: nat, stmt: nat -> Option<DbError>)
    requires AllParsed(ps).Some? && RunAll(AllParsed(ps).value, rows).Success?
    requires NoFaults(stmt, idx, |ps|)
    ensures Run(ps, EmptyCut, rows, idx, stmt) == Crashed(IndexOutOfRange)
    decreases |ps|
  {
    if ps != [] {
      var op := ps[0].value;
      var ops' := AllParsed(ps[1..]).value;
      assert AllParsed(ps).value == [op] + ops';
      assert stmt(idx).None?;
      var step := Execute(op, rows, None);
      assert Perform(ps[0], rows, stmt(idx)) == step;
      RunAllStep(op, ops', rows);
      assert NoFaults(stmt, idx + 1, |ps[1..]|);
      RunCrashesAtEmptyCut(ps[1..], step.rows, idx + 1, stmt);
    }
  }

  /** A body whose cutting ends on an empty remainder, after elements that
      parse and run fault-free, panics with index out of range and commits
      nothing, however many elements came before. */
  lemma EmptyCutCrashes(value: string, rows: seq<Row>, script: Script)
    requires script.begin.None?
    requires |value| >= 2 && value[0] == '[' && value[|value| - 1] == ']'
    requires var c := CutAll(value[1..|value| - 1]);
      var ps := ParseEach(c.texts);
      c.ending == EmptyCut && AllParsed(ps).Some? && RunAll(AllParsed(ps).value, rows).Success?
    requires NoFaults(script.stmt, 0, |CutAll(value[1..|value| - 1]).texts|)
    ensures Interpret(value, rows, script) == (Panicked(IndexOutOfRange), rows)
  {
    var c := CutAll(value[1..|value| - 1]);
    RunCrashesAtEmptyCut(ParseEach(c.texts), rows, 0, script.stmt);
  }
}

=== FILE: bank.dfy ===
/** The ledger handlers: `bankPut` seeds the accounts once, `bankPost`
    transfers an amount between two accounts, `bankGet` lists the table.
    Their bodies are `{:key value, :key value ...}` maps, read item by item. */
module Bank {
  import opened Common
  import opened Text
  import opened Store

  /** Go's `/` on `int` for a positive divisor: the quotient truncated
      toward zero, so the remainder takes the dividend's sign. */
  function Quot(a: int, b: int): (q: int)
    requires b > 0
    ensures 0 <= a ==> 0 <= a - q * b < b
    ensures a < 0 ==> -b < a - q * b <= 0
  {
    if a >= 0 then a / b else -((-a) / b)
  }

  /** One `key value` item: `strings.SplitN(item, " ", 2)` and then its
      second part, which does not exist (an index-out-of-range panic) when
      the item holds no space. */
  function Field(item: string): (r: Result<(string, string), Panic>)
    ensures r.Failure? ==> r.error == IndexOutOfRange && Index(item, " ") < 0
    ensures r.Success? ==> r.value.0 + " " + r.value.1 == item && Index(item, " ") >= 0
  {
    var parts := SplitFirst(item, " ");
    if |parts| < 2 then Failure(IndexOutOfRange) else Success((parts[0], parts[1]))
  }

  /** The items of a body `{...}`: its brackets (whatever they are) dropped
      and the rest split on `", "`; a body shorter than two characters cannot
      be sliced and panics. */
  function Items(value: string): (r: Result<seq<string>, Panic>)
    ensures r.Failure? <==> |value| < 2
  {
    if |value| < 2 then Failure(IndexOutOfRange) else Success(Split(value[1..|value| - 1], ", "))
  }

  /** The ids of an `:accounts [id id ...]` value, its brackets dropped
      without being checked. */
  function AccountIds(v: string): (r: Result<seq<int>, Panic>)
    ensures r.Failure? <==> |v| < 2
  {
    if |v| < 2 then Failure(IndexOutOfRange) else Success(Atois(Split(v[1..|v| - 1], " ")))
  }

  // -------------------------------------------------------------------
  // bankPut

  /** What `bankPut` reads from its body. */
  datatype Setup = Setup(accounts: seq<int>, total: int)

  /** The item loop of `bankPut`, from a state reached so far: every
      `:accounts` item adds its ids, `:total-amount` sets the total, any
      other key is ignored. */
  function ReadSetup(items: seq<string>, s: Setup): Result<Setup, Panic>
    decreases |items|
  {
    if items == [] then Success(s)
    else match Field(items[0])
      case Failure(p) => Failure(p)
      case Success((k, v)) =>
        if k == ":accounts" then
          match AccountIds(v)
          case Failure(p) => Failure(p)
          case Success(ids) => ReadSetup(items[1..], Setup(s.accounts + ids, s.total))
        else if k == ":total-amount" then ReadSetup(items[1..], Setup(s.accounts, Atoi(v)))
        else ReadSetup(items[1..], s)
  }

  function ParseSetup(value: string): Result<Setup, Panic>
  {
    match Items(value)
    case Failure(p) => Failure(p)
    case Success(items) => ReadSetup(items, Setup([], 0))
  }

  /** One row per listed account, in list order, each with the same balance. */
  function Seed(ids: seq<int>, balance: int): (rows: seq<Row>)
    ensures |rows| == |ids|
    ensures forall i :: 0 <= i < |ids| ==> rows[i] == Row(ids[i], balance)
  {
    seq(|ids|, i requires 0 <= i < |ids| => Row(ids[i], balance))
  }

  /** The inserts of `bankPut` from account number `j` on; the insert of
      account `j` is statement `j + 1`. */
  function Inserts(ids: seq<int>, balance: int, rows: seq<Row>, stmt: nat -> Option<DbError>, j: nat): (b: TxBody)
    requires j <= |ids|
    ensures !b.Panics?
    ensures b.Commits? ==> b.text == "nil" && b.after == rows + Seed(ids[j..], balance)
    ensures b.Commits? <==> forall n :: j < n <= |ids| ==> stmt(n).None?
    ensures b.Aborts? ==>
      exists n :: j < n <= |ids| && stmt(n).Some? && b.error == Db(stmt(n).value) &&
        forall m :: j < m < n ==> stmt(m).None?
    decreases |ids| - j
  {
    if j == |ids| then
      assert rows + Seed(ids[j..], balance) == rows;
      Commits("nil", rows)
    else match stmt(j + 1)
      case Some(e) => Aborts(Db(e))
      case None =>
        assert rows + Seed(ids[j..], balance) == rows + [Row(ids[j], balance)] + Seed(ids[j + 1..], balance);
        Inserts(ids, balance, rows + [Row(ids[j], balance)], stmt, j + 1)
  }

  /** The transaction body of `bankPut`: count the rows (statement 0); a
      table that already has rows is left as it is. */
  function InitBody(ids: seq<int>, balance: int, rows: seq<Row>, stmt: nat -> Option<DbError>): TxBody
  {
    match stmt(0)
    case Some(e) => Aborts(Db(e))
    case None => if |rows| > 0 then Commits("nil", rows) else Inserts(ids, balance, rows, stmt, 0)
  }

  /** `bankPut` swallows a busy error, whichever step reported it, and
      replies with every other outcome of the transaction as it is. */
  function Tolerate(t: (Reply, seq<Row>)): (r: (Reply, seq<Row>))
    ensures r.1 == t.1
    ensures r.0 != Failed(Db(Busy))
    ensures t.0 == Failed(Db(Busy)) ==> r.0 == Text("nil")
    ensures t.0 != Failed(Db(Busy)) ==> r == t
  {
    if t.0 == Failed(Db(Busy)) then (Text("nil"), t.1) else t
  }

  /** The error check of `bankPut` as written: the `err` declared by the
      type assertion hides the transaction's error, so an error that is not
      a driver.Error is replaced by driver.Error's zero value, `Fault(0)`. */
  function TolerateAsWritten(t: (Reply, seq<Row>)): (r: (Reply, seq<Row>))
    ensures r.1 == t.1
    ensures r.0 != Failed(Db(Busy))
    ensures t.0.Failed? && t.0.error.Db? && t.0.error.cause.Foreign? ==>
      r.0 == Failed(Db(Fault(0))) && r.0 != t.0
    ensures !(t.0.Failed? && t.0.error.Db? && t.0.error.cause.Foreign?) ==> r == Tolerate(t)
  {
    if t.0 == Failed(Db(Busy)) then (Text("nil"), t.1)
    else if t.0.Failed? && t.0.error.Db? && t.0.error.cause.Foreign? then (Failed(Db(Fault(0))), t.1)
    else t
  }

  /** `bankPut` as a function of the committed table. */
  function Init(value: string, rows: seq<Row>, script: Script): (Reply, seq<Row>)
  {
    match ParseSetup(value)
    case Failure(p) => (Panicked(p), rows)
    case Success(s) =>
      if |s.accounts| == 0 then (Panicked(DivideByZero), rows)
      else Tolerate(Settle(rows, script, InitBody(s.accounts, Quot(s.total, |s.accounts|), rows, script.stmt)))
  }

  /** `bankPut` as written: the same as `Init` except that an error of
      another type than driver.Error is replied as driver.Error's zero value. */
  function InitAsWritten(value: string, rows: seq<Row>, script: Script): (r: (Reply, seq<Row>))
    ensures var i := Init(value, rows, script);
      r.1 == i.1 &&
      (i.0.Failed? && i.0.error.Db? && i.0.error.cause.Foreign? ==> r.0 == Failed(Db(Fault(0)))) &&
      (!(i.0.Failed? && i.0.error.Db? && i.0.error.cause.Foreign?) ==> r == i)
  {
    match ParseSetup(value)
    case Failure(p) => (Panicked(p), rows)
    case Success(s) =>
      if |s.accounts| == 0 then (Panicked(DivideByZero), rows)
      else TolerateAsWritten(Settle(rows, script, InitBody(s.accounts, Quot(s.total, |s.accounts|), rows, script.stmt)))
  }

  /** The item loop of `bankPut`. */
  method ReadSetupItems(value: string) returns (r: Result<Setup, Panic>)
    ensures r == ParseSetup(value)
  {
    if |value| < 2 {
      return Failure(IndexOutOfRange);
    }
    var accounts: seq<int> := [];
    var total := 0;
    var items := Split(value[1..|value| - 1], ", ");
    var i := 0;
    while i < |items|
      invariant 0 <= i <= |items|
      invariant ParseSetup(value) == ReadSetup(items[i..], Setup(accounts, total))
    {
      assert items[i..][1..] == items[i + 1..];
      var parts := SplitFirst(items[i], " ");
      if |parts| < 2 {
        return Failure(IndexOutOfRange);
      }
      var k, v := parts[0], parts[1];
      if k == ":accounts" {
        if |v| < 2 {
          return Failure(IndexOutOfRange);
        }
        var ids := ReadIds(v);
        accounts := accounts + ids;
      } else if k == ":total-amount" {
        total := Atoi(v);
      }
      i := i + 1;
    }
    return Success(Setup(accounts, total));
  }

  /** The inner loop of `bankPut` over the ids of one `:accounts` value. */
  method ReadIds(v: string) returns (ids: seq<int>)
    requires |v| >= 2
    ensures AccountIds(v) == Success(ids)
  {
    var tokens := Split(v[1..|v| - 1], " ");
    ids := [];
    var j := 0;
    while j < |tokens|
      invariant 0 <= j <= |tokens|
      invariant ids == Atois(tokens[..j])
    {
      assert tokens[..j + 1][..j] == tokens[..j];
      ids := ids + [Atoi(tokens[j])];
      j := j + 1;
    }
    assert tokens[..j] == tokens;
  }

  /** The transaction body of `bankPut` against the open transaction. */
  method SeedAccounts(db: Db, ids: seq<int>, balance: int, stmt: nat -> Option<DbError>) returns (err: Option<Error>)
    requires db.open
    modifies db`work
    ensures match InitBody(ids, balance, old(db.work), stmt)
      case Commits(_, after) => err.None? && db.work == after
      case Aborts(e) => err == Some(e)
      case Panics(_) => false
  {
    var size := db.Size(stmt(0));
    if size.Failure? {
      return Some(Db(size.error));
    }
    if size.value > 0 {
      return None;
    }
    var j := 0;
    while j < |ids|
      invariant 0 <= j <= |ids|
      invariant InitBody(ids, balance, old(db.work), stmt) == Inserts(ids, balance, db.work, stmt, j)
    {
      var e := db.Put(ids[j], balance, stmt(j + 1));
      if e.Some? {
        return Some(Db(e.value));
      }
      j := j + 1;
    }
    return None;
  }

  /** `bankPut` run against the database handle. */
  method BankPut(db: Db, value: string, script: Script) returns (r: Reply)
    modifies db
    ensures (r, db.rows) == Init(value, old(db.rows), script)
  {
    var setup := ReadSetupItems(value);
    if setup.Failure? {
      return Panicked(setup.error);
    }
    var accounts, total := setup.value.accounts, setup.value.total;
    if |accounts| == 0 {
      return Panicked(DivideByZero);
    }
    var balance := Quot(total, |accounts|);
    var err: Option<Error>;
    var began := db.Begin(script.begin);
    if began.Some? {
      err := Some(Db(began.value));
    } else {
      ghost var body := InitBody(accounts, balance, db.work, script.stmt);
      var bodyErr := SeedAccounts(db, accounts, balance, script.stmt);
      err := db.Finish(bodyErr, script.commit);
      assert body.Commits? && script.commit.None? ==> err.None? && db.rows == body.after;
    }
    ghost var settled := Settle(old(db.rows), script, InitBody(accounts, balance, old(db.rows), script.stmt));
    assert err.None? ==> settled == (Text("nil"), db.rows);
    assert err.Some? ==> settled == (Failed(err.value), db.rows);
    if err.Some? && err.value != Db(Busy) {
      return Failed(err.value);
    }
    return Text("nil");
  }

  // -------------------------------------------------------------------
  // bankPost

  /** What `bankPost` reads from its body; absent keys stay 0. */
  datatype Transfer = Transfer(from: int, to: int, amount: int)

  /** The item loop of `bankPost`, from a state reached so far. */
  function ReadTransfer(items: seq<string>, t: Transfer): Result<Transfer, Panic>
    decreases |items|
  {
    if items == [] then Success(t)
    else match Field(items[0])
      case Failure(p) => Failure(p)
      case Success((k, v)) =>
        if k == ":from" then ReadTransfer(items[1..], t.(from := Atoi(v)))
        else if k == ":to" then ReadTransfer(items[1..], t.(to := Atoi(v)))
        else if k == ":amount" then ReadTransfer(items[1..], t.(amount := Atoi(v)))
        else ReadTransfer(items[1..], t)
  }

  function ParseTransfer(value: string): Result<Transfer, Panic>
  {
    match Items(value)
    case Failure(p) => Failure(p)
    case Success(items) => ReadTransfer(items, Transfer(0, 0, 0))
  }

  /** The transaction body of `bankPost`: debit (statement 0), then credit
      (statement 1). */
  function TransferBody(t: Transfer, rows: seq<Row>, stmt: nat -> Option<DbError>): TxBody
  {
    match stmt(0)
    case Some(e) => Aborts(Db(e))
    case None =>
      match stmt(1)
      case Some(e) => Aborts(Db(e))
      case None => Commits("nil", AddTo(AddTo(rows, t.from, -t.amount), t.to, t.amount))
  }

  /** `bankPost` as a function of the committed table. */
  function Move(value: string, rows: seq<Row>, script: Script): (Reply, seq<Row>)
  {
    match ParseTransfer(value)
    case Failure(p) => (Panicked(p), rows)
    case Success(t) => Settle(rows, script, TransferBody(t, rows, script.stmt))
  }

  /** The item loop of `bankPost`. */
  method ReadTransferItems(value: string) returns (r: Result<Transfer, Panic>)
    ensures r == ParseTransfer(value)
  {
    if |value| < 2 {
      return Failure(IndexOutOfRange);
    }
    var from, to, amount := 0, 0, 0;
    var items := Split(value[1..|value| - 1], ", ");
    var i := 0;
    while i < |items|
      invariant 0 <= i <= |items|
      invariant ParseTransfer(value) == ReadTransfer(items[i..], Transfer(from, to, amount))
    {
      assert items[i..][1..] == items[i + 1..];
      var parts := SplitFirst(items[i], " ");
      if |parts| < 2 {
        return Failure(IndexOutOfRange);
      }
      var k, v := parts[0], parts[1];
      if k == ":from" {
        from := Atoi(v);
      } else if k == ":to" {
        to := Atoi(v);
      } else if k == ":amount" {
        amount := Atoi(v);
      }
      i := i + 1;
    }
    return Success(Transfer(from, to, amount));
  }

  /** `bankPost` run against the database handle. */
  method BankPost(db: Db, value: string, script: Script) returns (r: Reply)
    modifies db
    ensures (r, db.rows) == Move(value, old(db.rows), script)
  {
    var t := ReadTransferItems(value);
    if t.Failure? {
      return Panicked(t.error);
    }
    var from, to, amount := t.value.from, t.value.to, t.value.amount;
    var began := db.Begin(script.begin);
    if began.Some? {
      return Failed(Db(began.value));
    }
    var bodyErr: Option<Error> := None;
    var e := db.Update(from, -amount, script.stmt(0));
    if e.Some? {
      bodyErr := Some(Db(e.value));
    } else {
      e := db.Update(to, amount, script.stmt(1));
      if e.Some? {
        bodyErr := Some(Db(e.value));
      }
    }
    var err := db.Finish(bodyErr, script.commit);
    if err.Some? {
      return Failed(err.value);
    }
    return Text("nil");
  }

  // -------------------------------------------------------------------
  // bankGet

  /** `fmt.Sprintf("%d %d", id, balance)` for one row. */
  function Entry(row: Row): string
  {
    Itoa(row.key) + " " + Itoa(row.value)
  }

  function Entries(rows: seq<Row>): (es: seq<string>)
    ensures |es| == |rows|
  {
    if rows == [] then [] else Entries(rows[..|rows| - 1]) + [Entry(rows[|rows| - 1])]
  }

  /** Entry `i` of the listing is row `i`'s. */
  lemma {:induction false} EntriesAt(rows: seq<Row>, i: int)
    requires 0 <= i < |rows|
    ensures Entries(rows)[i] == Entry(rows[i])
    decreases |rows|
  {
    if i < |rows| - 1 {
      EntriesAt(rows[..|rows| - 1], i);
    }
  }

  /** The reply of `bankGet` on a table: `{id balance, id balance ...}`. */
  function Ledger(rows: seq<Row>): string
  {
    "{" + Join(Entries(rows), ", ") + "}"
  }

  /** `bankGet`: one read of the whole table, outside a transaction. */
  method BankGet(db: Db, fault: Option<DbError>) returns (r: Reply)
    ensures fault.Some? ==> r == Failed(Db(fault.value))
    ensures fault.None? ==> r == Text(Ledger(db.rows))
  {
    if fault.Some? {
      return Failed(Db(fault.value));
    }
    var rows := db.rows;
    var accounts: seq<string> := [];
    var i := 0;
    while i < |rows|
      invariant 0 <= i <= |rows|
      invariant accounts == Entries(rows[..i])
    {
      assert rows[..i + 1][..i] == rows[..i];
      accounts := accounts + [Entry(rows[i])];
      i := i + 1;
    }
    assert rows[..i] == rows;
    return Text("{" + Join(accounts, ", ") + "}");
  }
}

/** What the ledger handlers promise: conservation, seeding at most once,
    busy tolerance, and the bodies the test client sends read back exactly. */
module BankLaws {
  import opened Common
  import opened Text
  import opened Store
  import opened Bank

  /** The seeded rows carry `|ids|` times the balance. */
  lemma {:induction false} SeedSum(ids: seq<int>, balance: int)
    ensures Sum(Seed(ids, balance)) == |ids| * balance
    decreases |ids|
  {
    if ids != [] {
      assert Seed(ids, balance)[1..] == Seed(ids[1..], balance);
      SeedSum(ids[1..], balance);
    }
  }

  /** A seeded table holds the requested total up to the truncated
      remainder, which is smaller than the number of accounts. */
  lemma SeededTotal(ids: seq<int>, total: int)
    requires |ids| > 0
    ensures var s := Sum(Seed(ids, Quot(total, |ids|)));
      -|ids| < total - s < |ids| && (total >= 0 ==> s <= total) && (total < 0 ==> s >= total)
  {
    SeedSum(ids, Quot(total, |ids|));
  }

  /** `bankPut` changes the table at most once: only an empty table is
      seeded, and then with one row per listed account. */
  lemma InitOnce(value: string, rows: seq<Row>, script: Script)
    ensures var after := Init(value, rows, script).1;
      after == rows ||
      (rows == [] && ParseSetup(value).Success? &&
       var s := ParseSetup(value).value;
       |s.accounts| > 0 && after == Seed(s.accounts, Quot(s.total, |s.accounts|)))
  {
    match ParseSetup(value)
    case Failure(_) =>
    case Success(s) =>
      if |s.accounts| > 0 && |rows| == 0 {
        var body := InitBody(s.accounts, Quot(s.total, |s.accounts|), rows, script.stmt);
        assert s.accounts[0..] == s.accounts;
        assert body.Commits? ==> body.after == Seed(s.accounts, Quot(s.total, |s.accounts|));
      }
  }

  /** Once a `bankPut` has changed the table, no later one changes it. */
  lemma InitIdempotent(v1: string, v2: string, rows: seq<Row>, s1: Script, s2: Script)
    requires Init(v1, rows, s1).1 != rows
    ensures Init(v2, Init(v1, rows, s1).1, s2).1 == Init(v1, rows, s1).1
  {
    InitOnce(v1, rows, s1);
    var after := Init(v1, rows, s1).1;
    assert |after| > 0;
    InitOnce(v2, after, s2);
  }

  /** With nothing failing, an empty table is seeded with every listed
      account at the truncated share of the total, in list order. */
  lemma InitSeeds(value: string, script: Script)
    requires script.begin.None? && script.commit.None? && forall n: nat :: script.stmt(n).None?
    requires ParseSetup(value).Success? && |ParseSetup(value).value.accounts| > 0
    ensures var s := ParseSetup(value).value;
      Init(value, [], script) == (Text("nil"), Seed(s.accounts, Quot(s.total, |s.accounts|)))
  {
    var s := ParseSetup(value).value;
    var b := Quot(s.total, |s.accounts|);
    var body := InitBody(s.accounts, b, [], script.stmt);
    assert s.accounts[0..] == s.accounts;
    assert !body.Aborts?;
    assert body.after == [] + Seed(s.accounts, b) == Seed(s.accounts, b);
  }

  /** `bankPut` never reports a busy store, whichever step was busy: it
      replies "nil" with the table the transaction left; every other error
      is reported, and a reply is "nil" or an error or a panic. */
  lemma BusyTolerated(value: string, rows: seq<Row>, script: Script)
    ensures Init(value, rows, script).0 != Failed(Db(Busy))
    ensures Init(value, rows, script).0.Text? ==> Init(value, rows, script).0.body == "nil"
    ensures var parsed := ParseSetup(value).Success? && |ParseSetup(value).value.accounts| > 0;
      parsed && script.begin == Some(Busy) ==> Init(value, rows, script) == (Text("nil"), rows)
    ensures var parsed := ParseSetup(value).Success? && |ParseSetup(value).value.accounts| > 0;
      parsed && script.begin.Some? && script.begin != Some(Busy) ==>
        Init(value, rows, script) == (Failed(Db(script.begin.value)), rows)
    ensures var parsed := ParseSetup(value).Success? && |ParseSetup(value).value.accounts| > 0;
      parsed ==>
        var s := ParseSetup(value).value;
        var t := Settle(rows, script, InitBody(s.accounts, Quot(s.total, |s.accounts|), rows, script.stmt));
        (t.0 == Failed(Db(Busy)) ==> Init(value, rows, script) == (Text("nil"), rows)) &&
        (t.0.Failed? && t.0 != Failed(Db(Busy)) ==> Init(value, rows, script) == t)
  {
  }

  /** A BEGIN that fails with an error of another type than driver.Error
      (a lost connection, say) is replied, as written, as an empty driver
      error: the cause is lost; the intended reply carries it. */
  lemma ForeignErrorLost(value: string, rows: seq<Row>, script: Script)
    requires ParseSetup(value).Success? && |ParseSetup(value).value.accounts| > 0
    requires script.begin.Some? && script.begin.value.Foreign?
    ensures InitAsWritten(value, rows, script) == (Failed(Db(Fault(0))), rows)
    ensures Init(value, rows, script) == (Failed(Db(script.begin.value)), rows)
    ensures InitAsWritten(value, rows, script) != Init(value, rows, script)
  {
  }

  /** A failed insert rolls the whole seeding back: the table stays empty,
      and the reply is that insert's error (or "nil" if it was busy). */
  lemma InsertFaultRollsBack(value: string, script: Script, n: nat)
    requires ParseSetup(value).Success? && |ParseSetup(value).value.accounts| > 0
    requires 0 < n <= |ParseSetup(value).value.accounts| && script.stmt(n).Some?
    ensures Init(value, [], script).1 == []
    ensures Init(value, [], script).0.Failed? || Init(value, [], script).0 == Text("nil")
  {
  }

  /** A body that names no account panics on the division by the number of
      accounts, whatever the table and the collaborator. */
  lemma NoAccountsPanics(value: string, rows: seq<Row>, script: Script)
    requires ParseSetup(value).Success? && ParseSetup(value).value.accounts == []
    ensures Init(value, rows, script) == (Panicked(DivideByZero), rows)
  {
  }

  /** `:accounts []` does not name zero accounts: the empty text between its
      brackets splits into one empty id, which reads as account 0. */
  lemma EmptyIdListIsAccountZero()
    ensures AccountIds("[]") == Success([0])
  {
    assert "[]"[1..1] == "";
    assert Split("", " ") == [""];
    assert Atoi("") == 0;
    assert Atois([""]) == Atois([]) + [Atoi("")] == [0];
    assert AccountIds("[]") == Success(Atois(Split("", " ")));
  }

  /** An item with any other key leaves the setup read so far as it is. */
  lemma OtherSetupKeyIgnored(item: string, items: seq<string>, s: Setup)
    requires Field(item).Success? && Field(item).value.0 != ":accounts" && Field(item).value.0 != ":total-amount"
    ensures ReadSetup([item] + items, s) == ReadSetup(items, s)
  {
    assert ([item] + items)[0] == item && ([item] + items)[1..] == items;
  }

  /** Likewise for a transfer: only `:from`, `:to` and `:amount` are read. */
  lemma OtherTransferKeyIgnored(item: string, items: seq<string>, t: Transfer)
    requires Field(item).Success?
    requires var k := Field(item).value.0; k != ":from" && k != ":to" && k != ":amount"
    ensures ReadTransfer([item] + items, t) == ReadTransfer(items, t)
  {
    assert ([item] + items)[0] == item && ([item] + items)[1..] == items;
  }

  /** The body the test client sends to seed the accounts: a map with the
      ids rendered as a vector, `[id id ...]`. */
  function SetupText(ids: seq<int>, total: int): string
  {
    "{" + Join(SetupItems(ids, total), ", ") + "}"
  }

  function SetupItems(ids: seq<int>, total: int): seq<string>
  {
    [":accounts " + IntList(ids), ":total-amount " + Itoa(total)]
  }

  /** A `key value` item whose key has no space reads back as sent. */
  lemma FieldOf(k: string, v: string)
    requires ' ' !in k
    ensures Field(k + " " + v) == Success((k, v))
  {
    IndexAfter(k, " ", v);
    var s := k + " " + v;
    assert s[..|k|] == k && s[|k| + 1..] == v;
  }

  lemma {:induction false} JoinAvoids(parts: seq<string>, sep: string, c: char)
    requires c !in sep && forall i :: 0 <= i < |parts| ==> c !in parts[i]
    ensures c !in Join(parts, sep)
    decreases |parts|
  {
    if |parts| > 1 {
      JoinAvoids(parts[1..], sep, c);
    }
  }

  /** A map body whose items hold no comma splits back into its items. */
  lemma ItemsOfMap(items: seq<string>)
    requires |items| >= 1 && forall i :: 0 <= i < |items| ==> ',' !in items[i]
    ensures Items("{" + Join(items, ", ") + "}") == Success(items)
  {
    var value := "{" + Join(items, ", ") + "}";
    assert value[1..|value| - 1] == Join(items, ", ");
    SplitJoin(items, ", ");
  }

  lemma ReadAccounts(v: string, rest: seq<string>, s: Setup)
    requires |v| >= 2
    ensures ReadSetup([":accounts " + v] + rest, s) == ReadSetup(rest, Setup(s.accounts + AccountIds(v).value, s.total))
  {
    assert ":accounts " + v == ":accounts" + " " + v;
    FieldOf(":accounts", v);
    assert ([":accounts " + v] + rest)[1..] == rest;
  }

  lemma ReadTotal(v: string, rest: seq<string>, s: Setup)
    ensures ReadSetup([":total-amount " + v] + rest, s) == ReadSetup(rest, Setup(s.accounts, Atoi(v)))
  {
    assert ":total-amount " + v == ":total-amount" + " " + v;
    FieldOf(":total-amount", v);
    assert ([":total-amount " + v] + rest)[1..] == rest;
  }

  /** The vector of ids the client sends reads back as those ids. */
  lemma IdsRoundTrip(ids: seq<int>)
    requires |ids| > 0
    requires forall i :: 0 <= i < |ids| ==> MinInt64 <= ids[i] <= MaxInt64
    ensures AccountIds(IntList(ids)) == Success(ids)
  {
    var list := Join(Decimals(ids), " ");
    var v := IntList(ids);
    assert v[1..|v| - 1] == list;
    forall i | 0 <= i < |ids|
      ensures ' ' !in Decimals(ids)[i]
    {
      DecimalsAt(ids, i);
      ItoaChars(ids[i], ' ');
    }
    SplitJoin(Decimals(ids), " ");
    AtoisDecimals(ids);
  }

  /** `bankPut`'s item loop on an `:accounts` item and a total. */
  lemma AccountsThenTotal(v: string, ids: seq<int>, total: int)
    requires AccountIds(v) == Success(ids) && MinInt64 <= total <= MaxInt64
    ensures ReadSetup([":accounts " + v, ":total-amount " + Itoa(total)], Setup([], 0)) == Success(Setup(ids, total))
  {
    var b := ":total-amount " + Itoa(total);
    ReadAccounts(v, [b], Setup([], 0));
    assert [":accounts " + v, b] == [":accounts " + v] + [b];
    assert [] + ids == ids;
    ReadTotal(Itoa(total), [], Setup(ids, 0));
    assert [b] == [b] + [];
    ParseItoa(total);
  }

  /** `bankPut`'s item loop reads the client's items as the ids and total. */
  lemma SetupItemsRead(ids: seq<int>, total: int)
    requires |ids| > 0 && MinInt64 <= total <= MaxInt64
    requires forall i :: 0 <= i < |ids| ==> MinInt64 <= ids[i] <= MaxInt64
    ensures ReadSetup(SetupItems(ids, total), Setup([], 0)) == Success(Setup(ids, total))
  {
    IdsRoundTrip(ids);
    AccountsThenTotal(IntList(ids), ids, total);
  }

  /** `bankPut` reads back exactly the accounts and total the client sends,
      for a non-empty list of 64-bit ids and a 64-bit total. */
  lemma SetupRoundTrip(ids: seq<int>, total: int)
    requires |ids| > 0 && MinInt64 <= total <= MaxInt64
    requires forall i :: 0 <= i < |ids| ==> MinInt64 <= ids[i] <= MaxInt64
    ensures ParseSetup(SetupText(ids, total)) == Success(Setup(ids, total))
  {
    var items := SetupItems(ids, total);
    forall i | 0 <= i < |ids|
      ensures ',' !in Decimals(ids)[i]
    {
      DecimalsAt(ids, i);
      ItoaChars(ids[i], ',');
    }
    JoinAvoids(Decimals(ids), " ", ',');
    ItoaChars(total, ',');
    assert ',' !in items[0] && ',' !in items[1];
    ItemsOfMap(items);
    SetupItemsRead(ids, total);
  }

  /** A transfer's effect on one row: the source account pays the amount,
      the destination receives it (both, and so no change, when they are
      the same account). */
  function Moved(row: Row, t: Transfer): Row
  {
    Row(row.key, row.value - (if row.key == t.from then t.amount else 0) + (if row.key == t.to then t.amount else 0))
  }

  /** A committed transfer changes every row as `Moved` says and nothing
      else; any other outcome leaves the table as it was. */
  lemma MoveEffect(value: string, rows: seq<Row>, script: Script)
    ensures var (r, after) := Move(value, rows, script);
      !r.Text? ==> after == rows
    ensures var (r, after) := Move(value, rows, script);
      r.Text? ==> r.body == "nil" && ParseTransfer(value).Success? && |after| == |rows|
    ensures var (r, after) := Move(value, rows, script);
      r.Text? ==> forall i :: 0 <= i < |rows| ==> after[i] == Moved(rows[i], ParseTransfer(value).value)
  {
  }

  /** Transfers conserve the total balance whenever the two accounts have
      as many rows as each other (one each, in a seeded ledger), whatever
      the collaborator reports. */
  lemma MoveConserves(value: string, rows: seq<Row>, script: Script)
    requires ParseTransfer(value).Success? ==>
      var t := ParseTransfer(value).value; Count(rows, t.from) == Count(rows, t.to)
    ensures Sum(Move(value, rows, script).1) == Sum(rows)
  {
    if ParseTransfer(value).Success? {
      TransferConserves(ParseTransfer(value).value, rows);
    }
  }

  /** Debiting and crediting the same amount to equally many rows keeps the sum. */
  lemma TransferConserves(t: Transfer, rows: seq<Row>)
    requires Count(rows, t.from) == Count(rows, t.to)
    ensures Sum(AddTo(AddTo(rows, t.from, -t.amount), t.to, t.amount)) == Sum(rows)
  {
    var n := Count(rows, t.from);
    var debited := AddTo(rows, t.from, -t.amount);
    SumAddTo(rows, t.from, -t.amount);
    assert Sum(debited) == Sum(rows) - t.amount * n;
    CountAddTo(rows, t.from, -t.amount, t.to);
    SumAddTo(debited, t.to, t.amount);
    assert Sum(AddTo(debited, t.to, t.amount)) == Sum(debited) + t.amount * n;
  }

  /** The body the test client sends for a transfer. */
  function TransferText(t: Transfer): string
  {
    "{" + Join(TransferItems(t), ", ") + "}"
  }

  function TransferItems(t: Transfer): seq<string>
  {
    [":from" + " " + Itoa(t.from), ":to" + " " + Itoa(t.to), ":amount" + " " + Itoa(t.amount)]
  }

  lemma ReadKey(k: string, v: string, rest: seq<string>, t: Transfer)
    requires k == ":from" || k == ":to" || k == ":amount"
    ensures ReadTransfer([k + " " + v] + rest, t) ==
      ReadTransfer(rest, if k == ":from" then t.(from := Atoi(v)) else if k == ":to" then t.(to := Atoi(v)) else t.(amount := Atoi(v)))
  {
    FieldOf(k, v);
    assert ([k + " " + v] + rest)[1..] == rest;
  }

  /** `bankPost`'s item loop reads the client's items as the transfer. */
  lemma TransferItemsRead(t: Transfer)
    requires MinInt64 <= t.from <= MaxInt64 && MinInt64 <= t.to <= MaxInt64
    requires MinInt64 <= t.amount <= MaxInt64
    ensures ReadTransfer(TransferItems(t), Transfer(0, 0, 0)) == Success(t)
  {
    var items := TransferItems(t);
    ParseItoa(t.from);
    ParseItoa(t.to);
    ParseItoa(t.amount);
    var t1 := Transfer(t.from, 0, 0);
    var t2 := Transfer(t.from, t.to, 0);
    ReadKey(":from", Itoa(t.from), items[1..], Transfer(0, 0, 0));
    assert items == [items[0]] + items[1..];
    ReadKey(":to", Itoa(t.to), items[2..], t1);
    assert items[1..] == [items[1]] + items[2..];
    ReadKey(":amount", Itoa(t.amount), [], t2);
    assert items[2..] == [items[2]] + [];
  }

  /** `bankPost` reads back exactly the transfer the client sends. */
  lemma TransferRoundTrip(t: Transfer)
    requires MinInt64 <= t.from <= MaxInt64 && MinInt64 <= t.to <= MaxInt64
    requires MinInt64 <= t.amount <= MaxInt64
    ensures ParseTransfer(TransferText(t)) == Success(t)
  {
    var items := TransferItems(t);
    ItoaChars(t.from, ',');
    ItoaChars(t.to, ',');
    ItoaChars(t.amount, ',');
    assert ',' !in items[0] && ',' !in items[1] && ',' !in items[2];
    ItemsOfMap(items);
    TransferItemsRead(t);
  }

  /** `bankGet`'s reply lists every row, in table order: split on `", "`
      between its braces, it gives one `id balance` entry per row, and each
      entry reads back as that row's key and value. */
  lemma LedgerRoundTrip(rows: seq<Row>, i: int)
    requires |rows| > 0 && 0 <= i < |rows|
    requires forall j :: 0 <= j < |rows| ==> MinInt64 <= rows[j].key <= MaxInt64 && MinInt64 <= rows[j].value <= MaxInt64
    ensures var l := Ledger(rows); var es := Split(l[1..|l| - 1], ", ");
      |es| == |rows| && Field(es[i]).Success? &&
      Atoi(Field(es[i]).value.0) == rows[i].key && Atoi(Field(es[i]).value.1) == rows[i].value
  {
    var es := Entries(rows);
    var l := Ledger(rows);
    assert l[1..|l| - 1] == Join(es, ", ");
    forall j | 0 <= j < |rows|
      ensures ',' !in es[j]
    {
      EntriesAt(rows, j);
      ItoaChars(rows[j].key, ',');
      ItoaChars(rows[j].value, ',');
    }
    SplitJoin(es, ", ");
    EntriesAt(rows, i);
    ItoaChars(rows[i].key, ' ');
    FieldOf(Itoa(rows[i].key), Itoa(rows[i].value));
    ParseItoa(rows[i].key);
    ParseItoa(rows[i].value);
  }
}

=== FILE: common.dfy ===
/** Shared outcome types: optional values, results, the errors the HTTP
    handlers render as "Error: ..." text, and the runtime panics some of the
    handlers can raise on malformed input. */
module Common {

  datatype Option<+T> = None | Some(value: T)

  datatype Result<+T, +E> = Success(value: T) | Failure(error: E)

  /** An error reported by the database or cluster client (a foreign
      collaborator). */
  datatype DbError =
    | Busy                  // driver.ErrBusy: contention on the replicated store
    | Rejected(token: string) // the integer column refused a non-numeric argument
    | Fault(code: int)      // any other driver.Error, by its code; Fault(0) is its zero value
    | Foreign(code: int)    // an error of another type than driver.Error (a lost connection, a finished transaction)

  /** The errors the handlers return. */
  datatype Error =
    | BadRequest                                  // "bad request"
    | Db(cause: DbError)                          // passed through from the collaborator
    | UnknownNode                                 // leader address missing from the static table
    | LookupFailed(address: string)              // reverse lookup of a member's address failed
    | NotOneHost(address: string, hosts: seq<string>) // reverse lookup gave other than one name
    | ResolveFailed(name: string)                 // forward resolution of a node name failed
    | NoNodeNamed(name: string)                   // "no node named ..."
    | ClusterSize(size: nat)                      // "cluster has still only %d nodes"
    | StillSpare(address: string)                 // "node ... is still spare"

  /** Go runtime panics the handlers can trigger on malformed input. */
  datatype Panic = IndexOutOfRange | DivideByZero

  /** What a handler produces: a body, an error, or a runtime panic. */
  datatype Reply = Text(body: string) | Failed(error: Error) | Panicked(cause: Panic)
}

=== FILE: join.dfy ===
/** Start-up decisions in `main`: the list of existing members a node asks to
    join, whether the node sets the number of voters, and the bounded retry
    of the schema creation. Flags, the resolved IP and the outcome of each
    schema attempt are parameters. */
module Startup {
  import opened Common
  import opened Text
  import opened Membership

  /** The API port; the dqlite port is the next one. */
  const Port: int := 8080

  /** The dqlite addresses of the given node names, in order. */
  function Addresses(names: seq<string>): (r: seq<string>)
    ensures |r| == |names|
    ensures forall j :: 0 <= j < |names| ==> r[j] == MakeAddress(names[j], Port + 1)
  {
    seq(|names|, j requires 0 <= j < |names| => MakeAddress(names[j], Port + 1))
  }

  lemma AddressesAppend(a: seq<string>, b: seq<string>)
    ensures Addresses(a + b) == Addresses(a) + Addresses(b)
  {
    assert forall j :: 0 <= j < |b| ==> (a + b)[|a| + j] == b[j];
  }

  /** The position of the first occurrence of `node`, or |nodes| if absent. */
  function Position(node: string, nodes: seq<string>): (i: nat)
    ensures i <= |nodes|
    ensures i < |nodes| ==> nodes[i] == node
    ensures forall j :: 0 <= j < i ==> nodes[j] != node
    ensures i == |nodes| <==> node !in nodes
    decreases |nodes|
  {
    if nodes == [] then 0
    else if nodes[0] == node then 0
    else 1 + Position(node, nodes[1..])
  }

  /** The names other than `node`, in order. */
  function Without(nodes: seq<string>, node: string): seq<string>
    decreases |nodes|
  {
    if nodes == [] then []
    else
      var last := nodes[|nodes| - 1];
      Without(nodes[..|nodes| - 1], node) + (if last == node then [] else [last])
  }

  /** Exactly the names different from `node` survive. */
  lemma {:induction false} WithoutMembers(nodes: seq<string>, node: string)
    ensures forall x :: x in Without(nodes, node) <==> x in nodes && x != node
    decreases |nodes|
  {
    if nodes != [] {
      var init := nodes[..|nodes| - 1];
      WithoutMembers(init, node);
      assert nodes == init + [nodes[|nodes| - 1]];
    }
  }

  /** A list without `node` is left as it is. */
  lemma {:induction false} WithoutAbsent(nodes: seq<string>, node: string)
    requires node !in nodes
    ensures Without(nodes, node) == nodes
    decreases |nodes|
  {
    if nodes != [] {
      var init := nodes[..|nodes| - 1];
      assert node !in init by {
        assert forall x :: x in init ==> x in nodes;
      }
      WithoutAbsent(init, node);
      assert nodes == init + [nodes[|nodes| - 1]];
    }
  }

  lemma {:induction false} WithoutAppend(a: seq<string>, b: seq<string>, node: string)
    ensures Without(a + b, node) == Without(a, node) + Without(b, node)
    decreases |b|
  {
    if b == [] {
      assert a + b == a;
    } else {
      var init := b[..|b| - 1];
      WithoutAppend(a, init, node);
      assert (a + b)[..|a + b| - 1] == a + init;
    }
  }

  /** What preceedingAddresses computes: the dqlite addresses of the names
      before the first occurrence of `node`, none if `node` is absent. */
  function Preceding(node: string, nodes: seq<string>): seq<string>
  {
    var i := Position(node, nodes);
    if i < |nodes| then Addresses(nodes[..i]) else []
  }

  /** What otherAddresses computes: the dqlite addresses of every name
      other than `node`, in order. */
  function Others(node: string, nodes: seq<string>): seq<string>
  {
    Addresses(Without(nodes, node))
  }

  /** preceedingAddresses: find `node`, then collect the names before it. */
  method PreceedingAddresses(node: string, nodes: seq<string>) returns (preceding: seq<string>)
    ensures preceding == Preceding(node, nodes)
  {
    preceding := [];
    for i := 0 to |nodes|
      invariant preceding == []
      invariant forall k :: 0 <= k < i ==> nodes[k] != node
    {
      if nodes[i] != node {
        continue;
      }
      for j := 0 to i
        invariant preceding == Addresses(nodes[..j])
      {
        assert nodes[..j + 1] == nodes[..j] + [nodes[j]];
        AddressesAppend(nodes[..j], [nodes[j]]);
        preceding := preceding + [MakeAddress(nodes[j], Port + 1)];
      }
      return;
    }
  }

  /** otherAddresses: collect every name but `node`. */
  method OtherAddresses(node: string, nodes: seq<string>) returns (others: seq<string>)
    ensures others == Others(node, nodes)
  {
    others := [];
    for i := 0 to |nodes|
      invariant others == Addresses(Without(nodes[..i], node))
    {
      assert nodes[..i + 1][..i] == nodes[..i];
      if nodes[i] == node {
        continue;
      }
      AddressesAppend(Without(nodes[..i], node), [nodes[i]]);
      others := others + [MakeAddress(nodes[i], Port + 1)];
    }
    assert nodes[..|nodes|] == nodes;
  }

  /** A node present in the list joins through the nodes before it, and
      those are the first of the nodes other than it. */
  lemma PrecedingPrefix(node: string, nodes: seq<string>)
    requires node in nodes
    ensures Preceding(node, nodes) <= Others(node, nodes)
  {
    var i := Position(node, nodes);
    assert node !in nodes[..i];
    WithoutAbsent(nodes[..i], node);
    assert nodes == nodes[..i] + nodes[i..];
    WithoutAppend(nodes[..i], nodes[i..], node);
    AddressesAppend(nodes[..i], Without(nodes[i..], node));
  }

  /** A node missing from the list joins through nobody on a first start,
      and through everybody on a rejoin. */
  lemma AbsentNode(node: string, nodes: seq<string>)
    requires node !in nodes
    ensures Preceding(node, nodes) == []
    ensures Others(node, nodes) == Addresses(nodes)
  {
    WithoutAbsent(nodes, node);
  }

  /** The addresses a node rejoins through are those of exactly the other
      names. */
  lemma OthersExclude(node: string, nodes: seq<string>)
    ensures forall x :: x in Others(node, nodes) <==>
      exists name :: name in nodes && name != node && x == MakeAddress(name, Port + 1)
  {
    WithoutMembers(nodes, node);
    var w := Without(nodes, node);
    forall x | x in Others(node, nodes)
      ensures exists name :: name in nodes && name != node && x == MakeAddress(name, Port + 1)
    {
      var j :| 0 <= j < |w| && Others(node, nodes)[j] == x;
      assert w[j] in w;
    }
    forall x | exists name :: name in nodes && name != node && x == MakeAddress(name, Port + 1)
      ensures x in Others(node, nodes)
    {
      var name :| name in nodes && name != node && x == MakeAddress(name, Port + 1);
      var j :| 0 <= j < |w| && w[j] == name;
      assert Others(node, nodes)[j] == x;
    }
  }

  // ---------------------------------------------------------------------
  // The app options

  /** The options `main` hands to app.New that carry a decision. */
  datatype Options = Options(address: string, cluster: seq<string>, voters: Option<nat>)

  /** Build the options from the node's IP, its name, the comma-separated
      `-cluster` flag and whether a `rejoin` marker is present. */
  method Configure(ip: string, node: string, cluster: string, rejoin: bool) returns (o: Options)
    ensures var nodes := Split(cluster, ",");
      o.address == MakeAddress(ip, Port + 1) &&
      o.cluster == (if rejoin then Others(node, nodes) else Preceding(node, nodes)) &&
      o.voters == (if |nodes| > 1 then Some(|nodes|) else None)
  {
    var nodes := Split(cluster, ",");
    var join: seq<string>;
    if rejoin {
      join := OtherAddresses(node, nodes);
    } else {
      join := PreceedingAddresses(node, nodes);
    }
    o := Options(MakeAddress(ip, Port + 1), join, None);
    var n := |nodes|;
    if n > 1 {
      o := o.(voters := Some(n));
    }
  }

  /** The number of voters is set exactly when the `-cluster` flag holds a
      comma, and it is then the number of names. */
  lemma VotersSet(cluster: string)
    ensures |Split(cluster, ",")| > 1 <==> ',' in cluster
  {
    var i := Index(cluster, ",");
    IndexFirst(cluster, ",");
    if i >= 0 {
      SplitCons(cluster, ",");
      assert cluster[i..i + 1] == ",";
      assert cluster[i] == ',';
    } else {
      SplitAbsent(cluster, ",");
      forall j | 0 <= j < |cluster|
        ensures cluster[j] != ','
      {
        assert !OccursAt(cluster, ",", j);
        assert cluster[j..j + 1] == [cluster[j]];
      }
    }
  }

  /** On a first start the first listed node bootstraps the cluster: it
      joins through nobody. */
  lemma FirstNodeBootstraps(nodes: seq<string>)
    requires |nodes| >= 1
    ensures Preceding(nodes[0], nodes) == []
  {
  }

  // ---------------------------------------------------------------------
  // The schema retry loop

  /** How the schema creation ends: created at the given 1-based attempt,
      fatal after ten failed attempts ("still locked"), or fatal on a
      non-busy error at the given attempt. */
  datatype SchemaOutcome = Created(attempts: nat) | Locked | Fatal(attempt: nat, cause: DbError)

  /** The schema loop from the 0-based attempt `i` on, where `attempt(i)` is
      the error of that attempt's `db.Exec(schema)`, if any. */
  function Schema(attempt: nat -> Option<DbError>, i: nat): SchemaOutcome
    decreases 10 - i
  {
    if i >= 10 then Locked
    else
      match attempt(i)
      case None => Created(i + 1)
      case Some(e) =>
        if i == 9 then Locked
        else if e == Busy then Schema(attempt, i + 1)
        else Fatal(i + 1, e)
  }

  /** Every attempt from `lo` up to `hi` (excluded) failed as busy. */
  predicate AllBusy(attempt: nat -> Option<DbError>, lo: nat, hi: nat)
  {
    forall j: nat :: lo <= j < hi ==> attempt(j) == Some(Busy)
  }

  /** The schema retry loop of `main`: up to ten attempts, sleeping and
      retrying only on a busy store. */
  method CreateSchema(attempt: nat -> Option<DbError>) returns (o: SchemaOutcome)
    ensures o == Schema(attempt, 0)
  {
    var i := 0;
    while i < 10
      invariant 0 <= i <= 10
      invariant Schema(attempt, i) == Schema(attempt, 0)
    {
      var err := attempt(i);
      if err.None? {
        return Created(i + 1);
      }
      if i == 9 {
        return Locked;
      }
      if err.value != Busy {
        return Fatal(i + 1, err.value);
      }
      i := i + 1;
    }
    o := Locked;
  }

  /** Busy attempts are skipped over. */
  lemma {:induction false} SchemaSkip(attempt: nat -> Option<DbError>, i: nat, k: nat)
    requires i <= k <= 9 && AllBusy(attempt, i, k)
    ensures Schema(attempt, i) == Schema(attempt, k)
    decreases k - i
  {
    if i < k {
      SchemaSkip(attempt, i + 1, k);
    }
  }

  /** What each outcome of the loop from attempt `i` tells about the
      attempts. */
  lemma {:induction false} SchemaFrom(attempt: nat -> Option<DbError>, i: nat)
    requires i <= 9
    ensures Schema(attempt, i).Created? ==>
      var n := Schema(attempt, i).attempts;
      i < n <= 10 && attempt(n - 1).None? && AllBusy(attempt, i, n - 1)
    ensures Schema(attempt, i).Fatal? ==>
      var n := Schema(attempt, i).attempt;
      i < n <= 9 && attempt(n - 1) == Some(Schema(attempt, i).cause) &&
      Schema(attempt, i).cause != Busy && AllBusy(attempt, i, n - 1)
    ensures Schema(attempt, i).Locked? ==> attempt(9).Some? && AllBusy(attempt, i, 9)
    decreases 9 - i
  {
    if attempt(i).Some? && i < 9 && attempt(i).value == Busy {
      SchemaFrom(attempt, i + 1);
    }
  }

  /** The schema is created at attempt n exactly when attempt n succeeds
      after n - 1 busy ones. */
  lemma SchemaCreated(attempt: nat -> Option<DbError>, n: nat)
    ensures Schema(attempt, 0) == Created(n) <==>
      1 <= n <= 10 && attempt(n - 1).None? && AllBusy(attempt, 0, n - 1)
  {
    SchemaFrom(attempt, 0);
    if 1 <= n <= 10 && attempt(n - 1).None? && AllBusy(attempt, 0, n - 1) {
      SchemaSkip(attempt, 0, n - 1);
    }
  }

  /** Start-up stops on a non-busy error at attempt n (below the tenth)
      exactly when the attempts before it were busy. */
  lemma SchemaFatal(attempt: nat -> Option<DbError>, n: nat, e: DbError)
    ensures Schema(attempt, 0) == Fatal(n, e) <==>
      1 <= n <= 9 && attempt(n - 1) == Some(e) && e != Busy && AllBusy(attempt, 0, n - 1)
  {
    SchemaFrom(attempt, 0);
    if 1 <= n <= 9 && attempt(n - 1) == Some(e) && e != Busy && AllBusy(attempt, 0, n - 1) {
      SchemaSkip(attempt, 0, n - 1);
    }
  }

  /** Start-up reports the store as still locked exactly when nine busy
      attempts are followed by a tenth failure of any kind. */
  lemma SchemaLocked(attempt: nat -> Option<DbError>)
    ensures Schema(attempt, 0) == Locked <==> attempt(9).Some? && AllBusy(attempt, 0, 9)
  {
    SchemaFrom(attempt, 0);
    if attempt(9).Some? && AllBusy(attempt, 0, 9) {
      SchemaSkip(attempt, 0, 9);
    }
  }
}

=== FILE: membership.dfy ===
/** The cluster handlers `readyGet`, `membersDelete`, `membersGet` and
    `leaderGet`. The go-dqlite client is a foreign collaborator: what the
    leader reports (the member list, or the leader itself) arrives as a
    `Result`, whose failure stands for an error from reaching the leader or
    from asking it. The DNS resolvers are function parameters. */
module Membership {
  import opened Common
  import opened Text

  /** A member's role in the dqlite cluster. */
  datatype Role = Voter | StandBy | Spare

  /** client.NodeInfo: one member as the leader reports it. */
  datatype NodeInfo = NodeInfo(id: nat, address: string, role: Role)

  /** makeAddress: `host:port`. */
  function MakeAddress(host: string, port: int): string
  {
    host + ":" + Itoa(port)
  }

  /** `strings.Split(address, ":")[0]`: the host part of an address. */
  function Host(address: string): string
  {
    Split(address, ":")[0]
  }

  /** The host part is a prefix of the address holding no colon. */
  lemma HostPrefix(address: string)
    ensures |Host(address)| <= |address|
    ensures Host(address) == address[..|Host(address)|]
    ensures ':' !in Host(address)
  {
    var i := Index(address, ":");
    IndexFirst(address, ":");
    var h := Host(address);
    if i >= 0 {
      SplitCons(address, ":");
      assert h == address[..i];
    } else {
      assert h == address;
    }
    forall j | 0 <= j < |h|
      ensures h[j] != ':'
    {
      assert !OccursAt(address, ":", j);
      assert address[j..j + 1] == [address[j]];
    }
  }

  /** The host part of an address built by makeAddress is the host it was
      built from, provided that host holds no colon (an IPv4 address or a
      name). */
  lemma HostOfAddress(host: string, port: int)
    requires ':' !in host
    ensures Host(MakeAddress(host, port)) == host
  {
    var s := MakeAddress(host, port);
    IndexAfter(host, ":", Itoa(port));
    SplitCons(s, ":");
    assert s[..|host|] == host;
  }

  /** The position of the first member satisfying `p`, if any. */
  function First(ms: seq<NodeInfo>, p: NodeInfo -> bool): (r: Option<nat>)
    ensures r.Some? ==> r.value < |ms| && p(ms[r.value])
    ensures r.Some? ==> forall j :: 0 <= j < r.value ==> !p(ms[j])
    ensures r.None? ==> forall j :: 0 <= j < |ms| ==> !p(ms[j])
    decreases |ms|
  {
    if ms == [] then None
    else if p(ms[0]) then Some(0)
    else
      match First(ms[1..], p)
      case None => None
      case Some(i) => Some(i + 1)
  }

  // ---------------------------------------------------------------------
  // readyGet

  /** readyGet: the cluster is ready when it has as many members as the
      `-cluster` flag names and none of them is still a spare. A size
      mismatch is reported before any spare. */
  function ReadyGet(cluster: Result<seq<NodeInfo>, DbError>, nodes: seq<string>): (r: Reply)
    ensures r == Text("nil") <==>
      cluster.Success? && |cluster.value| == |nodes| &&
      forall i :: 0 <= i < |cluster.value| ==> cluster.value[i].role != Spare
    ensures !r.Panicked?
    ensures cluster.Failure? ==> r == Failed(Db(cluster.error))
    ensures cluster.Success? && |cluster.value| != |nodes| ==> r == Failed(ClusterSize(|cluster.value|))
    ensures r.Failed? && r.error.StillSpare? ==>
      cluster.Success? && |cluster.value| == |nodes| &&
      exists i :: 0 <= i < |cluster.value| && cluster.value[i].role == Spare &&
        cluster.value[i].address == r.error.address &&
        forall j :: 0 <= j < i ==> cluster.value[j].role != Spare
  {
    match cluster
    case Failure(e) => Failed(Db(e))
    case Success(ms) =>
      if |ms| != |nodes| then Failed(ClusterSize(|ms|))
      else
        match First(ms, (m: NodeInfo) => m.role == Spare)
        case Some(i) => Failed(StillSpare(ms[i].address))
        case None => Text("nil")
  }

  // ---------------------------------------------------------------------
  // membersDelete

  /** The reply of membersDelete and the member whose removal it asked the
      leader for, if any. */
  datatype Deletion = Deletion(reply: Reply, requested: Option<nat>)

  /** membersDelete: resolve the posted name to an IP, then ask the leader to
      remove the first member whose address is `IP:8081`. `resolve` stands
      for net.ResolveIPAddr (None: resolution failed); `removeFault` is the
      leader's answer to the removal. */
  function MembersDelete(cluster: Result<seq<NodeInfo>, DbError>, value: string,
                         resolve: string -> Option<string>, removeFault: Option<DbError>): (r: Deletion)
    ensures cluster.Failure? ==> r == Deletion(Failed(Db(cluster.error)), None)
    ensures cluster.Success? && resolve(value).None? ==> r == Deletion(Failed(ResolveFailed(value)), None)
    ensures cluster.Success? && resolve(value).Some? ==>
      var ms, a := cluster.value, MakeAddress(resolve(value).value, 8081);
      (r.requested.Some? <==> exists i :: 0 <= i < |ms| && ms[i].address == a) &&
      (r.requested.Some? ==>
        exists i :: 0 <= i < |ms| && ms[i].address == a && ms[i].id == r.requested.value &&
          forall j :: 0 <= j < i ==> ms[j].address != a)
    ensures r.requested.None? && cluster.Success? && resolve(value).Some? ==> r.reply == Failed(NoNodeNamed(value))
    ensures r.requested.Some? ==> r.reply == if removeFault.Some? then Failed(Db(removeFault.value)) else Text("nil")
  {
    match cluster
    case Failure(e) => Deletion(Failed(Db(e)), None)
    case Success(ms) =>
      match resolve(value)
      case None => Deletion(Failed(ResolveFailed(value)), None)
      case Some(ip) =>
        var address := MakeAddress(ip, 8081);
        match First(ms, (m: NodeInfo) => m.address == address)
        case None => Deletion(Failed(NoNodeNamed(value)), None)
        case Some(i) =>
          var reply := if removeFault.Some? then Failed(Db(removeFault.value)) else Text("nil");
          Deletion(reply, Some(ms[i].id))
  }

  // ---------------------------------------------------------------------
  // membersGet

  function Quote(s: string): string
  {
    "\"" + s + "\""
  }

  /** The inverse of Quote: the text between a leading and a trailing
      double quote. */
  function Unquote(t: string): (r: Option<string>)
    ensures r.Some? ==> Quote(r.value) == t
  {
    if |t| >= 2 && t[0] == '"' && t[|t| - 1] == '"' then Some(t[1..|t| - 1]) else None
  }

  /** One member's entry in the membersGet listing: the single name the
      reverse lookup (`lookup`, standing for net.LookupAddr) gives for the
      host part of its address, quoted. */
  function Lookup(m: NodeInfo, lookup: string -> Option<seq<string>>): (r: Result<string, Error>)
    ensures var hosts := lookup(Host(m.address));
      r.Success? <==> hosts.Some? && |hosts.value| == 1
    ensures var hosts := lookup(Host(m.address));
      r.Success? ==> Unquote(r.value) == Some(hosts.value[0])
    ensures var hosts := lookup(Host(m.address));
      hosts.None? ==> r == Failure(LookupFailed(m.address))
    ensures var hosts := lookup(Host(m.address));
      hosts.Some? && |hosts.value| != 1 ==> r == Failure(NotOneHost(m.address, hosts.value))
  {
    var hosts := lookup(Host(m.address));
    if hosts.None? then Failure(LookupFailed(m.address))
    else if |hosts.value| != 1 then Failure(NotOneHost(m.address, hosts.value))
    else
      var q := Quote(hosts.value[0]);
      assert q[1..|q| - 1] == hosts.value[0];
      Success(q)
  }

  /** The entries of all members in cluster order, or the first failure. */
  function LookupAll(ms: seq<NodeInfo>, lookup: string -> Option<seq<string>>): Result<seq<string>, Error>
    decreases |ms|
  {
    if ms == [] then Success([])
    else
      match Lookup(ms[0], lookup)
      case Failure(e) => Failure(e)
      case Success(q) =>
        match LookupAll(ms[1..], lookup)
        case Failure(e) => Failure(e)
        case Success(qs) => Success([q] + qs)
  }

  /** The reply membersGet specifies: the bracketed, space-separated entries,
      or the leader's error, or the first member's lookup error. */
  function Members(cluster: Result<seq<NodeInfo>, DbError>, lookup: string -> Option<seq<string>>): Reply
  {
    match cluster
    case Failure(e) => Failed(Db(e))
    case Success(ms) =>
      match LookupAll(ms, lookup)
      case Failure(e) => Failed(e)
      case Success(qs) => Text("[" + Join(qs, " ") + "]")
  }

  /** When every member resolves, the listing holds one entry per member,
      in cluster order. */
  lemma {:induction false} LookupAllOk(ms: seq<NodeInfo>, lookup: string -> Option<seq<string>>)
    requires forall i :: 0 <= i < |ms| ==> Lookup(ms[i], lookup).Success?
    ensures LookupAll(ms, lookup).Success?
    ensures |LookupAll(ms, lookup).value| == |ms|
    ensures forall i :: 0 <= i < |ms| ==> LookupAll(ms, lookup).value[i] == Lookup(ms[i], lookup).value
    decreases |ms|
  {
    if ms != [] {
      LookupAllOk(ms[1..], lookup);
      var qs := LookupAll(ms[1..], lookup).value;
      assert LookupAll(ms, lookup).value == [Lookup(ms[0], lookup).value] + qs;
      forall i | 1 <= i < |ms|
        ensures LookupAll(ms, lookup).value[i] == Lookup(ms[i], lookup).value
      {
        assert ms[1..][i - 1] == ms[i];
      }
    }
  }

  /** One failing member fails the whole listing, with the error of the
      first member that fails. */
  lemma {:induction false} LookupAllFails(ms: seq<NodeInfo>, lookup: string -> Option<seq<string>>, i: int)
    requires 0 <= i < |ms| && Lookup(ms[i], lookup).Failure?
    requires forall j :: 0 <= j < i ==> Lookup(ms[j], lookup).Success?
    ensures LookupAll(ms, lookup) == Failure(Lookup(ms[i], lookup).error)
    decreases |ms|
  {
    if i > 0 {
      forall j | 0 <= j < i - 1
        ensures Lookup(ms[1..][j], lookup).Success?
      {
        assert ms[1..][j] == ms[j + 1];
      }
      assert ms[1..][i - 1] == ms[i];
      LookupAllFails(ms[1..], lookup, i - 1);
    }
  }

  /** membersGet succeeds exactly when every member's lookup gives one
      name; a failing member's error is the reply. */
  lemma MembersAllOrNothing(ms: seq<NodeInfo>, lookup: string -> Option<seq<string>>)
    ensures Members(Success(ms), lookup).Text? <==>
      forall i :: 0 <= i < |ms| ==> Lookup(ms[i], lookup).Success?
    ensures Members(Success(ms), lookup).Failed? ==>
      exists i :: 0 <= i < |ms| && Lookup(ms[i], lookup).Failure? &&
        Members(Success(ms), lookup) == Failed(Lookup(ms[i], lookup).error)
  {
    if forall i :: 0 <= i < |ms| ==> Lookup(ms[i], lookup).Success? {
      LookupAllOk(ms, lookup);
    } else {
      var f := First(ms, (m: NodeInfo) => Lookup(m, lookup).Failure?);
      var i := f.value;
      LookupAllFails(ms, lookup, i);
    }
  }

  /** membersGet: fill one slot per member with its quoted name, failing as a
      whole on the first member whose lookup fails. */
  method MembersGet(cluster: Result<seq<NodeInfo>, DbError>, lookup: string -> Option<seq<string>>) returns (r: Reply)
    ensures r == Members(cluster, lookup)
  {
    if cluster.Failure? {
      return Failed(Db(cluster.error));
    }
    var ms := cluster.value;
    var nodes := new string[|ms|];
    for i := 0 to |ms|
      invariant forall j :: 0 <= j < i ==> Lookup(ms[j], lookup).Success? && nodes[j] == Lookup(ms[j], lookup).value
    {
      var addr := Host(ms[i].address);
      var hosts := lookup(addr);
      if hosts.None? {
        LookupAllFails(ms, lookup, i);
        return Failed(LookupFailed(ms[i].address));
      }
      if |hosts.value| != 1 {
        LookupAllFails(ms, lookup, i);
        return Failed(NotOneHost(ms[i].address, hosts.value));
      }
      nodes[i] := Quote(hosts.value[0]);
    }
    LookupAllOk(ms, lookup);
    assert nodes[..] == LookupAll(ms, lookup).value;
    r := Text("[" + Join(nodes[..], " ") + "]");
  }

  // ---------------------------------------------------------------------
  // leaderGet

  /** The hard-coded table from private IP to public host name. */
  const Names: map<string, string> := map[
    "172.31.83.238" := "ec2-34-239-159-119.compute-1.amazonaws.com",
    "172.31.87.178" := "ec2-3-235-31-218.compute-1.amazonaws.com",
    "172.31.95.30" := "ec2-3-236-72-150.compute-1.amazonaws.com",
    "172.31.83.188" := "ec2-3-235-182-243.compute-1.amazonaws.com",
    "172.31.91.202" := "ec2-34-231-110-211.compute-1.amazonaws.com"
  ]

  /** The name leaderGet reports: empty when there is no leader, otherwise
      the table's name for the host part of the leader's address. */
  function LeaderName(leader: Result<Option<NodeInfo>, DbError>): (r: Result<string, Error>)
    ensures leader.Failure? ==> r == Failure(Db(leader.error))
    ensures leader == Success(None) ==> r == Success("")
    ensures leader.Success? && leader.value.Some? ==>
      (r.Success? <==> Host(leader.value.value.address) in Names) &&
      (r.Success? ==> r.value == Names[Host(leader.value.value.address)]) &&
      (r.Failure? ==> r.error == UnknownNode)
  {
    match leader
    case Failure(e) => Failure(Db(e))
    case Success(None) => Success("")
    case Success(Some(node)) =>
      var addr := Host(node.address);
      if addr in Names then Success(Names[addr]) else Failure(UnknownNode)
  }

  /** leaderGet as written: the name in double quotes followed by a stray
      closing parenthesis, so the reply is never a quoted string. */
  function LeaderGetAsWritten(leader: Result<Option<NodeInfo>, DbError>): (r: Reply)
    ensures r.Text? <==> LeaderName(leader).Success?
    ensures r.Text? ==> r.body == Quote(LeaderName(leader).value) + ")"
    ensures r.Text? ==> Unquote(r.body).None?
  {
    match LeaderName(leader)
    case Failure(e) => Failed(e)
    case Success(name) => Text("\"" + name + "\")")
  }

  /** leaderGet as evidently intended: the name in double quotes. */
  function LeaderGet(leader: Result<Option<NodeInfo>, DbError>): (r: Reply)
    ensures r.Text? <==> LeaderName(leader).Success?
    ensures r.Text? ==> Unquote(r.body) == Some(LeaderName(leader).value)
    ensures r.Failed? ==> r.error == LeaderName(leader).error
  {
    match LeaderName(leader)
    case Failure(e) => Failed(e)
    case Success(name) => Text(Quote(name))
  }

  /** A leader listening on a tabled IP's dqlite port is reported by that
      IP's public name. */
  lemma LeaderKnownAddress(id: nat, ip: string, role: Role)
    requires ip in Names
    ensures LeaderGet(Success(Some(NodeInfo(id, MakeAddress(ip, 8081), role)))) == Text(Quote(Names[ip]))
  {
    assert ':' !in ip;
    HostOfAddress(ip, 8081);
  }
}

=== FILE: store.dfy ===
/** The `map (key INT, value INT)` table behind the handlers and the
    transaction discipline of `withTx`. The replicated SQL engine itself is a
    foreign collaborator: the table is a sequence of rows, and every failure the
    engine could report is supplied from outside through a `Script`. */
module Store {
  import opened Common
  import opened Text

  datatype Row = Row(key: int, value: int)

  /** The collaborator's answers for one transaction: whether BEGIN fails,
      whether the statement with a given 0-based number fails, whether COMMIT
      fails. */
  datatype Script = Script(begin: Option<DbError>, stmt: nat -> Option<DbError>, commit: Option<DbError>)

  /** The values of the rows keyed `k`, in the order the store holds them. */
  function Select(rows: seq<Row>, k: int): seq<int>
  {
    if rows == [] then []
    else (if rows[0].key == k then [rows[0].value] else []) + Select(rows[1..], k)
  }

  /** Number of rows keyed `k`. */
  function Count(rows: seq<Row>, k: int): nat
  {
    if rows == [] then 0 else (if rows[0].key == k then 1 else 0) + Count(rows[1..], k)
  }

  /** Sum of all values in the table. */
  function Sum(rows: seq<Row>): int
  {
    if rows == [] then 0 else rows[0].value + Sum(rows[1..])
  }

  /** `UPDATE map SET value = value + d WHERE key = k`. */
  function AddTo(rows: seq<Row>, k: int, d: int): (r: seq<Row>)
    ensures |r| == |rows|
  {
    seq(|rows|, i requires 0 <= i < |rows| =>
      if rows[i].key == k then Row(k, rows[i].value + d) else rows[i])
  }

  /** The integer column's reading of a statement argument: only a decimal
      64-bit integer is accepted. */
  function Column(token: string): (r: Option<int>)
    ensures r.Some? <==> ParseInt(token).Int?
    ensures r.Some? ==> r.value == Atoi(token)
  {
    if ParseInt(token).Int? then Some(ParseInt(token).n) else None
  }

  /** `SELECT value FROM map WHERE key=?` with `key` as sent: the values read,
      or the collaborator's error. */
  function Query(rows: seq<Row>, key: string, fault: Option<DbError>): (r: Result<seq<int>, DbError>)
    ensures r.Success? <==> fault.None? && Column(key).Some?
    ensures r.Success? ==> r.value == Select(rows, Column(key).value)
    ensures fault.Some? ==> r == Failure(fault.value)
  {
    if fault.Some? then Failure(fault.value)
    else match Column(key)
      case None => Failure(Rejected(key))
      case Some(k) => Success(Select(rows, k))
  }

  /** `INSERT INTO map(key, value) VALUES(?, ?)` with both arguments as sent:
      the new table, or the collaborator's error. */
  function Insert(rows: seq<Row>, key: string, value: string, fault: Option<DbError>): (r: Result<seq<Row>, DbError>)
    ensures r.Success? <==> fault.None? && Column(key).Some? && Column(value).Some?
    ensures r.Success? ==> r.value == rows + [Row(Atoi(key), Atoi(value))]
    ensures fault.Some? ==> r == Failure(fault.value)
  {
    if fault.Some? then Failure(fault.value)
    else match (Column(key), Column(value))
      case (None, _) => Failure(Rejected(key))
      case (_, None) => Failure(Rejected(value))
      case (Some(k), Some(v)) => Success(rows + [Row(k, v)])
  }

  /** What a transaction body does with the table it is given. */
  datatype TxBody = Commits(text: string, after: seq<Row>) | Aborts(error: Error) | Panics(cause: Panic)

  /** `withTx`: BEGIN, run the body, then ROLLBACK on its error or COMMIT.
      Returns the reply and the committed table. A panic in the body unwinds
      past the deferred-free `withTx` and nothing is committed. */
  function Settle(rows: seq<Row>, script: Script, body: TxBody): (r: (Reply, seq<Row>))
    ensures r.0.Text? <==> script.begin.None? && body.Commits? && script.commit.None?
    ensures r.1 == if r.0.Text? then body.after else rows
    ensures r.0.Text? ==> r.0.body == body.text
    ensures script.begin.None? && body.Aborts? ==> r.0 == Failed(body.error)
    ensures script.begin.None? && body.Panics? ==> r.0 == Panicked(body.cause)
    ensures script.begin.Some? ==> r.0 == Failed(Db(script.begin.value))
    ensures script.begin.None? && body.Commits? && script.commit.Some? ==> r.0 == Failed(Db(script.commit.value))
  {
    if script.begin.Some? then (Failed(Db(script.begin.value)), rows)
    else match body
      case Aborts(e) => (Failed(e), rows)
      case Panics(p) => (Panicked(p), rows)
      case Commits(text, after) =>
        if script.commit.Some? then (Failed(Db(script.commit.value)), rows) else (Text(text), after)
  }

  /** Appending a row and reading its key back yields the earlier values for
      that key followed by the new one; other keys read as before. */
  lemma {:induction false} SelectAfterInsert(rows: seq<Row>, k: int, v: int, q: int)
    ensures Select(rows + [Row(k, v)], q) == Select(rows, q) + (if q == k then [v] else [])
    decreases |rows|
  {
    var all := rows + [Row(k, v)];
    if rows == [] {
      assert all == [Row(k, v)];
      assert all[1..] == [];
    } else {
      assert all[0] == rows[0] && all[1..] == rows[1..] + [Row(k, v)];
      SelectAfterInsert(rows[1..], k, v, q);
      var h := if rows[0].key == q then [rows[0].value] else [];
      assert Select(all, q) == h + Select(rows[1..] + [Row(k, v)], q);
      assert Select(rows, q) == h + Select(rows[1..], q);
    }
  }

  /** Every value read for `k` is the value of some row keyed `k`, and there
      are as many of them as rows keyed `k`. */
  lemma {:induction false} SelectSound(rows: seq<Row>, k: int)
    ensures |Select(rows, k)| == Count(rows, k)
    ensures forall v :: v in Select(rows, k) ==> Row(k, v) in rows
    decreases |rows|
  {
    if rows != [] {
      SelectSound(rows[1..], k);
      assert forall r :: r in rows[1..] ==> r in rows;
    }
  }

  /** An update adds `d` once for every row it touches. */
  lemma {:induction false} SumAddTo(rows: seq<Row>, k: int, d: int)
    ensures Sum(AddTo(rows, k, d)) == Sum(rows) + d * Count(rows, k)
    decreases |rows|
  {
    if rows != [] {
      assert AddTo(rows, k, d)[1..] == AddTo(rows[1..], k, d);
      SumAddTo(rows[1..], k, d);
    }
  }

  /** An update changes values only, so every key keeps its number of rows. */
  lemma {:induction false} CountAddTo(rows: seq<Row>, k: int, d: int, q: int)
    ensures Count(AddTo(rows, k, d), q) == Count(rows, q)
    decreases |rows|
  {
    if rows != [] {
      assert AddTo(rows, k, d)[1..] == AddTo(rows[1..], k, d);
      CountAddTo(rows[1..], k, d, q);
    }
  }

  /** The database handle: the committed table and, while a transaction is
      open, the table as that transaction sees it. */
  class Db {
    var rows: seq<Row>
    var work: seq<Row>
    var open: bool

    constructor (initial: seq<Row>)
      ensures rows == initial && work == initial && !open
    {
      rows := initial;
      work := initial;
      open := false;
    }

    /** `db.Begin()`: on success a transaction opens on the committed table. */
    method Begin(fault: Option<DbError>) returns (err: Option<DbError>)
      modifies this
      ensures err == fault && rows == old(rows)
      ensures err.None? ==> open && work == rows
      ensures err.Some? ==> open == old(open) && work == old(work)
    {
      err := fault;
      if fault.None? {
        work := rows;
        open := true;
      }
    }

    /** `tx.QueryContext` for one key. */
    function Read(key: string, fault: Option<DbError>): Result<seq<int>, DbError>
      reads this
    {
      Query(work, key, fault)
    }

    /** `tx.ExecContext` of an INSERT: only the transaction's view changes. */
    method Add(key: string, value: string, fault: Option<DbError>) returns (err: Option<DbError>)
      requires open
      modifies this`work
      ensures var r := Insert(old(work), key, value, fault);
        (r.Success? ==> err.None? && work == r.value) &&
        (r.Failure? ==> err == Some(r.error) && work == old(work))
    {
      var r := Insert(work, key, value, fault);
      if r.Success? {
        work := r.value;
        err := None;
      } else {
        err := Some(r.error);
      }
    }

    /** `tx.ExecContext` of an INSERT of two integers. */
    method Put(k: int, v: int, fault: Option<DbError>) returns (err: Option<DbError>)
      requires open
      modifies this`work
      ensures err == fault
      ensures work == if fault.None? then old(work) + [Row(k, v)] else old(work)
    {
      err := fault;
      if fault.None? {
        work := work + [Row(k, v)];
      }
    }

    /** `tx.ExecContext` of an UPDATE adding `d` to the rows keyed `k`. */
    method Update(k: int, d: int, fault: Option<DbError>) returns (err: Option<DbError>)
      requires open
      modifies this`work
      ensures err == fault
      ensures work == if fault.None? then AddTo(old(work), k, d) else old(work)
    {
      err := fault;
      if fault.None? {
        work := AddTo(work, k, d);
      }
    }

    /** `tx.QueryRowContext("SELECT count(*) FROM map")`. */
    function Size(fault: Option<DbError>): Result<nat, DbError>
      reads this
    {
      if fault.Some? then Failure(fault.value) else Success(|work|)
    }

    /** The tail of `withTx`: roll back on the body's error, otherwise commit. */
    method Finish(bodyErr: Option<Error>, commitFault: Option<DbError>) returns (err: Option<Error>)
      requires open
      modifies this
      ensures !open
      ensures bodyErr.Some? ==> err == bodyErr && rows == old(rows)
      ensures bodyErr.None? && commitFault.Some? ==> err == Some(Db(commitFault.value)) && rows == old(rows)
      ensures bodyErr.None? && commitFault.None? ==> err.None? && rows == old(work)
    {
      open := false;
      if bodyErr.Some? {
        err := bodyErr;
      } else if commitFault.Some? {
        err := Some(Db(commitFault.value));
      } else {
        rows := work;
        err := None;
      }
    }
  }
}

=== FILE: text.dfy ===
/** The subset of Go's `strings` and `strconv` packages the handlers use,
    over byte strings (modelled as `string`; every delimiter involved is
    ASCII). */
module Text {

  const MaxInt64: int := 0x7fff_ffff_ffff_ffff
  const MinInt64: int := -0x8000_0000_0000_0000
  const MaxUint64: int := 0xffff_ffff_ffff_ffff

  /** `t` occurs in `s` starting at position `i`. */
  predicate OccursAt(s: string, t: string, i: int) {
    0 <= i && i + |t| <= |s| && s[i..i + |t|] == t
  }

  lemma OccursShift(s: string, t: string)
    requires |s| > 0
    ensures forall j :: 0 <= j ==> (OccursAt(s[1..], t, j) <==> OccursAt(s, t, j + 1))
  {
    forall j | 0 <= j
      ensures OccursAt(s[1..], t, j) <==> OccursAt(s, t, j + 1)
    {
      if j + 1 + |t| <= |s| {
        assert s[1..][j..j + |t|] == s[j + 1..j + 1 + |t|];
      }
    }
  }

  /** strings.Index: the first position of the non-empty `t` in `s`, or -1. */
  function Index(s: string, t: string): (i: int)
    requires t != []
    ensures i == -1 || 0 <= i <= |s| - |t|
    decreases |s|
  {
    if |s| < |t| then -1
    else if s[..|t|] == t then 0
    else
      var k := Index(s[1..], t);
      if k < 0 then -1 else k + 1
  }

  /** Index finds the first occurrence, and -1 means there is none. */
  lemma {:induction false} IndexFirst(s: string, t: string)
    requires t != []
    ensures var i := Index(s, t);
      (i >= 0 ==> OccursAt(s, t, i)) &&
      forall j :: 0 <= j && (j < i || i == -1) ==> !OccursAt(s, t, j)
    decreases |s|
  {
    if |s| >= |t| && s[..|t|] != t {
      var k := Index(s[1..], t);
      IndexFirst(s[1..], t);
      OccursShift(s, t);
      assert !OccursAt(s, t, 0);
      forall j | 1 <= j && (j < k + 1 || k == -1)
        ensures !OccursAt(s, t, j)
      {
        assert !OccursAt(s[1..], t, j - 1);
      }
    }
  }

  /** The first occurrence of a single character pins down Index. */
  lemma IndexChar(s: string, c: char, n: int)
    requires 0 <= n < |s| && s[n] == c
    requires forall j :: 0 <= j < n ==> s[j] != c
    ensures Index(s, [c]) == n
  {
    assert OccursAt(s, [c], n);
    IndexFirst(s, [c]);
    var k := Index(s, [c]);
    if k >= 0 {
      assert s[k..k + 1] == [c];
      assert s[k] == c;
    }
  }

  /** Index of a single character: its first position, or -1 exactly when
      the character does not occur. */
  lemma IndexCharFirst(s: string, c: char)
    ensures var i := Index(s, [c]);
      (i >= 0 ==> i < |s| && s[i] == c && c !in s[..i]) && (i < 0 <==> c !in s)
  {
    IndexFirst(s, [c]);
    var i := Index(s, [c]);
    forall j | 0 <= j < |s| && (j < i || i < 0)
      ensures s[j] != c
    {
      assert !OccursAt(s, [c], j);
      assert s[j..j + 1] == [s[j]];
    }
    if i >= 0 {
      assert s[i..i + 1] == [c];
    }
  }

  /** strings.Split(s, sep) for a non-empty separator. */
  function Split(s: string, sep: string): (parts: seq<string>)
    requires sep != []
    ensures |parts| >= 1
    decreases |s|
  {
    var i := Index(s, sep);
    if i < 0 then [s] else [s[..i]] + Split(s[i + |sep|..], sep)
  }

  /** strings.SplitN(s, sep, 2): at most two parts, cut at the first separator. */
  function SplitFirst(s: string, sep: string): (parts: seq<string>)
    requires sep != []
    ensures 1 <= |parts| <= 2
    ensures |parts| == 2 <==> Index(s, sep) >= 0
    ensures |parts| == 2 ==> parts[0] + sep + parts[1] == s
    ensures |parts| == 2 ==> parts[0] == s[..Index(s, sep)]
    ensures |parts| == 1 ==> parts[0] == s
  {
    var i := Index(s, sep);
    if i < 0 then [s]
    else
      IndexFirst(s, sep);
      assert s[..i] + sep + s[i + |sep|..] == s by {
        assert s[i..i + |sep|] == sep;
        assert s == s[..i] + s[i..i + |sep|] + s[i + |sep|..];
      }
      [s[..i], s[i + |sep|..]]
  }

  /** strings.Join. */
  function Join(parts: seq<string>, sep: string): string
  {
    if |parts| == 0 then ""
    else if |parts| == 1 then parts[0]
    else parts[0] + sep + Join(parts[1..], sep)
  }

  lemma SplitCons(s: string, sep: string)
    requires sep != [] && Index(s, sep) >= 0
    ensures var i := Index(s, sep); Split(s, sep) == [s[..i]] + Split(s[i + |sep|..], sep)
  {
  }

  lemma SliceAround(s: string, i: int, j: int)
    requires 0 <= i <= j <= |s|
    ensures s == s[..i] + s[i..j] + s[j..]
  {
  }

  lemma JoinCons(p: string, parts: seq<string>, sep: string)
    requires |parts| >= 1
    ensures Join([p] + parts, sep) == p + sep + Join(parts, sep)
  {
    assert ([p] + parts)[1..] == parts;
  }

  /** Joining the pieces of a split with the same separator gives back the string. */
  lemma {:induction false} JoinSplit(s: string, sep: string)
    requires sep != []
    ensures Join(Split(s, sep), sep) == s
    decreases |s|
  {
    var i := Index(s, sep);
    if i >= 0 {
      var rest := s[i + |sep|..];
      JoinSplit(rest, sep);
      SplitCons(s, sep);
      JoinCons(s[..i], Split(rest, sep), sep);
      IndexFirst(s, sep);
      SliceAround(s, i, i + |sep|);
    }
  }

  /** Index stops at the separator after a part that cannot start one. */
  lemma IndexAfter(p: string, sep: string, rest: string)
    requires sep != [] && sep[0] !in p
    ensures Index(p + sep + rest, sep) == |p|
  {
    var s := p + sep + rest;
    assert s[|p|..|p| + |sep|] == sep;
    assert OccursAt(s, sep, |p|);
    IndexFirst(s, sep);
  }

  /** A part that cannot start the separator does not contain it. */
  lemma IndexNone(p: string, sep: string)
    requires sep != [] && sep[0] !in p
    ensures Index(p, sep) == -1
  {
    IndexFirst(p, sep);
  }

  /** Splitting a join gives back the parts when no part holds the
      separator's first character. */
  lemma {:induction false} SplitJoin(parts: seq<string>, sep: string)
    requires sep != [] && |parts| >= 1
    requires forall i :: 0 <= i < |parts| ==> sep[0] !in parts[i]
    ensures Split(Join(parts, sep), sep) == parts
    decreases |parts|
  {
    if |parts| == 1 {
      IndexNone(parts[0], sep);
    } else {
      var p, rest := parts[0], Join(parts[1..], sep);
      var s := p + sep + rest;
      assert Join(parts, sep) == s;
      IndexAfter(p, sep, rest);
      SplitCons(s, sep);
      assert s[..|p|] == p;
      assert s[|p| + |sep|..] == rest;
      SplitJoin(parts[1..], sep);
      assert parts == [p] + parts[1..];
    }
  }

  /** A string without the separator splits into itself alone. */
  lemma SplitAbsent(s: string, sep: string)
    requires sep != [] && Index(s, sep) < 0
    ensures Split(s, sep) == [s]
  {
  }

  // ---------------------------------------------------------------------
  // Decimal integers (strconv.Atoi on a 64-bit platform, and Itoa)

  predicate IsDigit(c: char) { '0' <= c <= '9' }

  function DigitValue(c: char): (d: nat)
    requires IsDigit(c)
    ensures d < 10
  {
    (c as int) - ('0' as int)
  }

  function DigitChar(d: nat): (c: char)
    requires d < 10
    ensures IsDigit(c) && DigitValue(c) == d
  {
    (('0' as int) + d) as char
  }

  /** What strconv.ParseUint's loop yields on a digit string, carrying `acc`:
      a non-digit is a syntax error; passing the unsigned 64-bit maximum stops
      the scan at once with a range error, before any later character is seen. */
  datatype Scan = SyntaxError | RangeError | Value(n: nat)

  function ScanDigits(s: string, acc: nat): Scan
    decreases |s|
  {
    if s == [] then Value(acc)
    else if !IsDigit(s[0]) then SyntaxError
    else
      var n := acc * 10 + DigitValue(s[0]);
      if n > MaxUint64 then RangeError else ScanDigits(s[1..], n)
  }

  /** strconv.ParseInt(s, 10, 64), with the clamped value Go returns on a range error. */
  datatype Parsed = Syntax | OutOfRange(clamped: int) | Int(n: int)

  function ParseInt(s: string): (p: Parsed)
    ensures p.Int? ==> MinInt64 <= p.n <= MaxInt64
    ensures p.OutOfRange? ==> |s| > 0 && p.clamped == if s[0] == '-' then MinInt64 else MaxInt64
  {
    if s == [] then Syntax
    else
      var neg := s[0] == '-';
      var digits := if s[0] == '+' || s[0] == '-' then s[1..] else s;
      if digits == [] then Syntax
      else match ScanDigits(digits, 0)
        case SyntaxError => Syntax
        case RangeError => OutOfRange(if neg then MinInt64 else MaxInt64)
        case Value(u) =>
          if !neg && u > MaxInt64 then OutOfRange(MaxInt64)
          else if neg && u > -MinInt64 then OutOfRange(MinInt64)
          else Int(if neg then -(u as int) else u)
  }

  /** The value of `n, _ := strconv.Atoi(s)`: the error is dropped, so a
      syntax error gives 0 and a range error the clamped bound. */
  function Atoi(s: string): (n: int)
    ensures MinInt64 <= n <= MaxInt64
    ensures ParseInt(s).Int? ==> n == ParseInt(s).n
    ensures ParseInt(s).Syntax? ==> n == 0
    ensures ParseInt(s).OutOfRange? ==> n == ParseInt(s).clamped
    ensures ParseInt(s).OutOfRange? ==> n == if s[0] == '-' then MinInt64 else MaxInt64
  {
    match ParseInt(s)
    case Syntax => 0
    case OutOfRange(c) => c
    case Int(n) => n
  }

  /** Decimal digits of a natural number, most significant first. */
  function NatDigits(n: nat): (s: string)
    ensures |s| >= 1
    ensures forall i :: 0 <= i < |s| ==> IsDigit(s[i])
  {
    if n < 10 then [DigitChar(n)] else NatDigits(n / 10) + [DigitChar(n % 10)]
  }

  /** fmt's %d / %v rendering of an integer. */
  function Itoa(n: int): (s: string)
    ensures |s| >= 1 && (s[0] == '-' <==> n < 0)
    ensures forall i :: 0 <= i < |s| ==> IsDigit(s[i]) || (i == 0 && s[i] == '-')
  {
    if n < 0 then "-" + NatDigits(-n) else NatDigits(n)
  }

  /** Each value rendered in decimal, in order. */
  function Decimals(vs: seq<int>): (ds: seq<string>)
    ensures |ds| == |vs|
  {
    if vs == [] then [] else [Itoa(vs[0])] + Decimals(vs[1..])
  }

  lemma {:induction false} DecimalsAt(vs: seq<int>, i: int)
    requires 0 <= i < |vs|
    ensures Decimals(vs)[i] == Itoa(vs[i])
    decreases |vs|
  {
    if i > 0 {
      DecimalsAt(vs[1..], i - 1);
    }
  }

  /** fmt's %v rendering of a slice of ints: `[v1 v2 ...]`, `[]` when empty. */
  function IntList(vs: seq<int>): string
  {
    "[" + Join(Decimals(vs), " ") + "]"
  }

  /** Every token read by Atoi, in order. */
  function Atois(ts: seq<string>): (ns: seq<int>)
    ensures |ns| == |ts|
  {
    if ts == [] then [] else Atois(ts[..|ts| - 1]) + [Atoi(ts[|ts| - 1])]
  }

  lemma {:induction false} AtoisAt(ts: seq<string>, i: int)
    requires 0 <= i < |ts|
    ensures Atois(ts)[i] == Atoi(ts[i])
    decreases |ts|
  {
    if i < |ts| - 1 {
      AtoisAt(ts[..|ts| - 1], i);
    }
  }

  /** A rendered integer holds nothing but digits and a leading minus. */
  lemma ItoaChars(n: int, c: char)
    requires !IsDigit(c) && c != '-'
    ensures c !in Itoa(n)
  {
  }

  lemma {:induction false} ScanSnoc(s: string, c: char, acc: nat)
    ensures ScanDigits(s + [c], acc) ==
      match ScanDigits(s, acc)
      case Value(m) =>
        if !IsDigit(c) then SyntaxError
        else if m * 10 + DigitValue(c) > MaxUint64 then RangeError
        else Value(m * 10 + DigitValue(c))
      case other => other
    decreases |s|
  {
    if s == [] {
      assert s + [c] == [c];
    } else {
      assert (s + [c])[1..] == s[1..] + [c];
      if IsDigit(s[0]) && acc * 10 + DigitValue(s[0]) <= MaxUint64 {
        ScanSnoc(s[1..], c, acc * 10 + DigitValue(s[0]));
      }
    }
  }

  lemma {:induction false} ScanNatDigits(n: nat)
    requires n <= MaxUint64
    ensures ScanDigits(NatDigits(n), 0) == Value(n)
  {
    if n >= 10 {
      ScanNatDigits(n / 10);
      ScanSnoc(NatDigits(n / 10), DigitChar(n % 10), 0);
    }
  }

  /** Atoi reads back what Itoa renders, for every 64-bit integer. */
  lemma ParseItoa(n: int)
    requires MinInt64 <= n <= MaxInt64
    ensures ParseInt(Itoa(n)) == Int(n)
    ensures Atoi(Itoa(n)) == n
  {
    if n < 0 {
      ScanNatDigits(-n);
      assert Itoa(n)[1..] == NatDigits(-n);
    } else {
      ScanNatDigits(n);
      assert Itoa(n)[0] != '+';
    }
  }

  /** Reading back a list of rendered 64-bit integers gives the list. */
  lemma AtoisDecimals(vs: seq<int>)
    requires forall i :: 0 <= i < |vs| ==> MinInt64 <= vs[i] <= MaxInt64
    ensures Atois(Decimals(vs)) == vs
  {
    forall i | 0 <= i < |vs|
      ensures Atois(Decimals(vs))[i] == vs[i]
    {
      DecimalsAt(vs, i);
      AtoisAt(Decimals(vs), i);
      ParseItoa(vs[i]);
    }
  }
}
